=== FILE: README.md ===
# Gift-card shop server core, modelled in Dafny

This project models the server side of a SvelteKit gift-card shop. It covers four pieces:

- **The session token lifecycle.** The login handler (`POST /api/login-session`) issues a cookie that holds `{userId, expiresAt}`. The cookie is JSON text, encoded as UTF-8 and then as base64. The server hook (`handle` in `hooks.server.ts`) decodes that cookie on every request. It then signs the request in, deletes the cookie, or does nothing.
- **Notification dispatch** (`POST /api/send-notifications`). The handler picks a subject, a body template and a recipient for each of three notification types. It then hands one mail to the transport.
- **Payment orchestration.** `POST /api/initiate-transfer` makes a payout from the balance. `POST /api/pay-stack` initialises a checkout. Each handler converts an amount to kobo and calls the Paystack gateway once. The checkout passes on the gateway's `data` or its refusal. The transfer passes on `data` and turns every refusal into a 500.
- **The card store** (`cardStore.ts`). It holds the gift card being ordered and changes under `setDetails` and `updateQuantity`.

Every handler is a pure function. The parsed request body is an argument: `None` stands for `request.json()` throwing. The clock, `NODE_ENV`, the operator's address, the gateway's answer and the mail transport's outcome are also arguments. Each handler returns the reply it produces and the effect it asks for:

- a cookie to set;
- a cookie to delete;
- the mail options handed to `sendMail`;
- the request sent to the gateway.

A reply is either a JSON response or an exception that reaches the framework (`Http.Reply`).

The token codec is modelled in full, not abstracted:

- base64 as in section 4 of RFC 4648 (`Base64`);
- UTF-8 as in RFC 3629 (`Utf8`);
- JSON text as in RFC 8259, with a serializer that writes what `JSON.stringify` writes for the model's values and a strict parser (`Json`). A parsed object keeps every member, duplicate keys included; see "## Left out".

The JavaScript behaviour the source relies on is modelled too (`Js`):

- truthiness;
- property reads on parsed JSON, where `null` throws and the last duplicate key wins;
- conversion to text in template literals, and `Number(…)` of a value, including numeric strings. Both throw a TypeError for an object with its own `toString` member, since JSON cannot make that member callable;
- `>` against a number;
- `*`.

Modules:

| file | modules |
|---|---|
| maybe.dfy | `Maybe` (`Option`), `Bytes` |
| base64.dfy, utf8.dfy, json.dfy, json_roundtrip.dfy | the token codec and its round trip |
| js.dfy, http.dfy | JavaScript values and numbers; replies and exceptions |
| session_token.dfy, login.dfy, hooks.dfy, lifecycle.dfy | the session token lifecycle |
| notifications.dfy | notification dispatch |
| gateway.dfy | `Gateway`, `InitiateTransfer`, `PayStack` |
| card_store.dfy | `CardStore` |

## Model

| member | source | states |
|---|---|---|
| Base64.DecodeEncode | src/routes/api/login-session/+server.ts:22 | decoding the base64 text of any octet string gives the octets back |
| Base64.EncodeLength | src/routes/api/login-session/+server.ts:22 | base64 text has four characters for every started group of three octets |
| Base64.Decode | src/hooks.server.ts:14 | the strict decoder accepts only text whose length is a multiple of four; anything else is refused |
| Base64.IndexOfCharOf | src/hooks.server.ts:14 | the alphabet's decoding table inverts its encoding table |
| Base64.GroupRoundTrip | src/hooks.server.ts:14 | a group of three octets survives encoding and decoding |
| Base64.DecodeEncodeOne | src/hooks.server.ts:14 | a final group of one octet, padded with `==`, decodes back to that octet |
| Base64.DecodeEncodeTwo | src/hooks.server.ts:14 | a final group of two octets, padded with `=`, decodes back to those octets |
| Utf8.EncodeChar | src/routes/api/login-session/+server.ts:22 | a character encodes to 1 to 4 octets, to one octet exactly when it is ASCII, and every octet after the first is a continuation octet |
| Utf8.DecodeFirstEncodeChar | src/hooks.server.ts:14 | the first character of an encoding decodes back to that character, with its length |
| Utf8.DecodeEncode | src/hooks.server.ts:14 | decoding the UTF-8 encoding of any string gives the string back |
| Json.NatText | src/routes/api/login-session/+server.ts:22 | the text of a natural number is non-empty, all digits, and starts with `0` only for zero |
| Json.DigitRun | src/hooks.server.ts:14 | the scanned digit run is all digits and stops at the first non-digit |
| JsonRoundTrip.DigitsValueNatText | src/hooks.server.ts:14 | the digits of a natural number read back as that number |
| JsonRoundTrip.NumberRoundTrip | src/hooks.server.ts:14 | an integer's JSON text, followed by a delimiter, parses back to that integer |
| JsonRoundTrip.HexRoundTrip | src/hooks.server.ts:14 | four hex digits written for a code unit read back as it |
| JsonRoundTrip.EscapeCharRoundTrip | src/hooks.server.ts:14 | each escaped character parses back to itself |
| JsonRoundTrip.StringRoundTrip | src/hooks.server.ts:14 | a quoted and escaped string parses back to the string, leaving the rest of the text |
| JsonRoundTrip.ValueRoundTrip | src/hooks.server.ts:14 | any value's text, followed by a delimiter, parses back to the value |
| JsonRoundTrip.ItemsRoundTrip | src/hooks.server.ts:14 | the items of an array parse back in order |
| JsonRoundTrip.MembersRoundTrip | src/hooks.server.ts:14 | the members of an object parse back in order, duplicates included |
| JsonRoundTrip.ParseStringify | src/hooks.server.ts:14 | `JSON.parse(JSON.stringify(v))` gives `v` back for every value |
| SessionToken.DecodeEncodePayload | src/hooks.server.ts:14 | the hook's decoding inverts the login handler's encoding for any JSON payload, and the token is never empty |
| SessionToken.DecodeEncode | src/routes/api/login-session/+server.ts:16-22 | a session token decodes to exactly `{userId, expiresAt}` |
| LoginSession.SessionCookie | src/routes/api/login-session/+server.ts:24-29 | the cookie is `session`, HTTP-only, at path `/`, secure only in production, with `maxAge` 432000000 |
| LoginSession.Post | src/routes/api/login-session/+server.ts:5-36 | the cookie is set exactly when the reply is 200 `{status:'success'}`; a body that is not JSON throws `SyntaxError` and `null` throws `TypeError`; a falsy `userId` gives 400 `{error:'No userId provided'}` with no cookie; a truthy `userId` gives a cookie whose token decodes to `{userId, expiresAt: now + 432000000}` |
| LoginSession.CookieOutlivesToken | src/routes/api/login-session/+server.ts:13-25 | the issued cookie lives 1000 times longer than the token's validity, in the same units |
| LoginSession.IntendedSessionCookie | src/routes/api/login-session/+server.ts:24-29 | with `maxAge` in seconds, the cookie's lifetime equals the token's five days |
| LoginSession.PostIntended | src/routes/api/login-session/+server.ts:5-36 | the corrected handler gives the same reply and token as the original, with a cookie that lives exactly five days |
| Hooks.Handle | src/hooks.server.ts:7-33 | `resolve` is applied once, to the user set; a user and a deletion never occur together; only `session` at `/` is deleted; a deletion happens exactly for a malformed or expired cookie; a user is set exactly for an authenticated one |
| Hooks.Classify | src/hooks.server.ts:11-28 | an absent or empty cookie is no session; text that does not decode is malformed; an authenticated verdict has a decoded non-null payload whose `expiresAt` is later than now and carries its `userId`; an expired verdict has an `expiresAt` that converts but is not later; conversely, for a decoded payload, `null` or an `expiresAt` that cannot be converted gives malformed, and a convertible `expiresAt` gives authenticated as the payload's `userId` when it is later than now and expired otherwise |
| Hooks.NoCookieIsAnonymous | src/hooks.server.ts:9-32 | with no cookie, or an empty one, no user is set and nothing is deleted |
| Hooks.SessionDecision | src/hooks.server.ts:14-24 | a session token authenticates its own `userId` exactly when `expiresAt > now`, strictly; otherwise it is expired |
| Hooks.BadLengthIsMalformed | src/hooks.server.ts:14-27 | with the strict decoder, a cookie whose length is not a multiple of four is caught as malformed and deleted |
| Hooks.NullPayloadIsMalformed | src/hooks.server.ts:18-27 | a token holding `null` throws at `sessionData.expiresAt` and is caught as malformed |
| Hooks.MissingExpiryIsExpired | src/hooks.server.ts:18-23 | an object without `expiresAt` compares `undefined > now`, which is false, so it counts as expired |
| Hooks.PrimitivePayloadIsExpired | src/hooks.server.ts:18-23 | a number, string, boolean or array token counts as expired |
| Hooks.NumericTextExpiryIsCoerced | src/hooks.server.ts:18-20 | an `expiresAt` holding the text of a number is compared as that number |
| Hooks.UserIdIsNotValidated | src/hooks.server.ts:18-20 | a live token without `userId` signs the request in as the user `undefined` |
| Hooks.UnconvertibleExpiryIsMalformed | src/hooks.server.ts:18-27 | an `expiresAt` whose conversion to a number throws is caught, so the cookie is malformed and deleted |
| SessionLifecycle.IssuedTokenAuthenticates | src/hooks.server.ts:18-23 | a token issued at `t0` authenticates its `userId` exactly while `now < t0 + 432000000`, and is expired afterwards |
| SessionLifecycle.StaleCookieIsDeleted | src/hooks.server.ts:21-24 | from the token's expiry until 1000 times its validity, the written cookie is still presented, and each request signs nobody in and deletes the cookie; that window is the lifetime the cookie asks for, and a browser that caps Max-Age at 400 days (RFC 6265bis) presents it for only the first part of it |
| SessionLifecycle.CookieAliveAfterExpiry | src/routes/api/login-session/+server.ts:13-25 | the written cookie is still presented at the moment its token expires |
| SessionLifecycle.IntendedCookieMatchesToken | src/routes/api/login-session/+server.ts:13-25 | with the corrected `maxAge`, the browser presents the cookie exactly while its token authenticates |
| Notifications.KindOf | src/routes/api/send-notifications/+server.ts:29-53 | exactly the strings `submission`, `confirmation` and `not-available` select the three types, by strict equality |
| Notifications.Text | src/routes/api/send-notifications/+server.ts:31-62 | the text is built exactly when every field its template interpolates converts to text (the address only for a submission) |
| Notifications.Post | src/routes/api/send-notifications/+server.ts:21-87 | the handler never throws; when the type is recognised, the mail handed over is exactly that type's mail, and none when its text cannot be built; no mail for an unrecognised type; 400 with `Invalid notification type` exactly for an unrecognised type; 200 with `Notification email sent successfully` exactly when a mail was handed over and delivered; anything else is 500 with `Failed to send notification email` |
| Notifications.DispatchTable | src/routes/api/send-notifications/+server.ts:29-74 | a mail exists exactly when its fields convert; each type's subject and recipient; the operator as sender; the submission body carries the `User Email` line |
| Notifications.OnlySubmissionMentionsEmail | src/routes/api/send-notifications/+server.ts:43-62 | the confirmation and not-available bodies do not depend on `userEmail` |
| Notifications.SubjectIdentifiesKind | src/routes/api/send-notifications/+server.ts:30-54 | different types never share a subject |
| Notifications.UnknownTypeSendsNothing | src/routes/api/send-notifications/+server.ts:64-66 | an unrecognised type gives 400 and no mail, whatever the transport would do |
| Notifications.UnprintableSendsNothing | src/routes/api/send-notifications/+server.ts:31-85 | a recognised type whose template meets a field that cannot be converted answers 500 and calls no transport |
| Gateway.MinorUnits | src/routes/api/initiate-transfer/+server.ts:10 | the conversion throws exactly for a value that cannot be converted; a JSON number `n` becomes `100 * n`; otherwise the result is NaN exactly when the field's conversion is NaN |
| Gateway.NumericTextAmount | src/routes/api/pay-stack/+server.ts:9 | the amount `"10.5"` becomes 1050 kobo |
| Gateway.NonNumericAmount | src/routes/api/pay-stack/+server.ts:9 | the amount `"ten"`, or a missing amount, becomes NaN |
| Gateway.UnconvertibleAmount | src/routes/api/initiate-transfer/+server.ts:10 | an amount that is an object with its own `toString` makes `amount * 100` throw |
| Gateway.ReadData | src/routes/api/pay-stack/+server.ts:28-29 | a successful reply is a 200 |
| Gateway.ReadDataForwards | src/routes/api/initiate-transfer/+server.ts:32-35 | a 200 passes on exactly the gateway's `data` |
| Js.LastValueFindsLast | src/hooks.server.ts:18-20 | a property read on a parsed object finds the value of the last member with that key, and `undefined` when no member has it |
| Js.ToText | src/routes/api/send-notifications/+server.ts:33-37 | `String(v)` succeeds exactly for `undefined` and values whose objects, at any depth of arrays, have no own `toString`; a string is its own text |
| Js.ToNumber | src/hooks.server.ts:18 | `Number(v)` throws exactly for a value whose conversion to text throws; a JSON number is itself |
| Js.StringToNumberIntText | src/hooks.server.ts:18 | `Number(…)` of an integer's decimal text is that integer |
| Js.TextComparison | src/hooks.server.ts:18 | `"n" > now` holds exactly when `n > now` |
| Js.FractionDecimal | src/routes/api/pay-stack/+server.ts:9 | a decimal literal `w.f` denotes the whole part plus the fraction's digits over the matching power of ten |
| Js.Multiply | src/lib/cardStore.ts:22 | `x * y` is NaN exactly when an operand is NaN or an infinity meets zero, and is the exact product of finite operands |
| Http.ErrorStatus | src/routes/api/pay-stack/+server.ts:25 | the client sees the status passed to `error`, or 500 when it is out of range |
| InitiateTransfer.Attempt | src/routes/api/initiate-transfer/+server.ts:5-35 | a request is made exactly when the body parsed to something other than `null` and its amount converts; the payload is `{source:'balance', amount: amount*100, recipient: recipient_code, reason}` and nothing else; an amount that cannot be converted throws TypeError before the request; a body that did not parse throws SyntaxError with no request |
| InitiateTransfer.Answer | src/routes/api/initiate-transfer/+server.ts:16-35 | the block completes normally exactly for an ok reply with a non-null JSON body; an `error(status, …)` comes only from a non-ok reply and carries its status, and every refusal with an error status and a JSON body raises one; a failed `fetch` escapes, a reply whose body is not JSON throws SyntaxError and one whose body is `null` throws TypeError |
| InitiateTransfer.Post | src/routes/api/initiate-transfer/+server.ts:3-41 | the handler as written makes exactly the request of the `try` block and returns its success unchanged, while anything thrown becomes a 500 `Internal Server Error` |
| InitiateTransfer.GatewayErrorIsMasked | src/routes/api/initiate-transfer/+server.ts:26-39 | every non-ok gateway reply gives the same 500, whatever its status and message |
| InitiateTransfer.OnlyTwoOutcomes | src/routes/api/initiate-transfer/+server.ts:3-41 | the client sees only 200 or 500; 200 exactly when the body parsed, its amount converts, the gateway answered ok, and its reply parsed |
| InitiateTransfer.PostIntended | src/routes/api/initiate-transfer/+server.ts:3-41 | the corrected handler makes the same request and returns the same successes |
| InitiateTransfer.IntendedPropagatesGatewayError | src/routes/api/initiate-transfer/+server.ts:26-28 | in the corrected handler a refusal carries the gateway's status, and its `message` when that is truthy, or `Failed to initiate transfer`; an amount that cannot be converted still ends in the generic 500 with no request |
| InitiateTransfer.OkForwardsData | src/routes/api/initiate-transfer/+server.ts:32-35 | an ok reply is answered with 200 and exactly the gateway's `data`, or `{}` when it has none |
| PayStack.Post | src/routes/api/pay-stack/+server.ts:3-30 | a request is made exactly when the body parsed to something other than `null` and its amount converts; the payload is `{email, amount: amount*100, firstName, lastName, description}`; an amount that cannot be converted throws TypeError before the request; a body that did not parse throws SyntaxError with no request |
| PayStack.Answer | src/routes/api/pay-stack/+server.ts:15-29 | the handler answers normally exactly for an ok reply with a non-null JSON body; a refusal reaches the client with its status when that is an error status, else 500; a failed `fetch` escapes as it is; an ok reply whose body is not JSON throws SyntaxError, and one whose body is `null` throws TypeError |
| PayStack.PropagatesGatewayStatus | src/routes/api/pay-stack/+server.ts:24-26 | a refusal reaches the client with the gateway's status and `HTTP error! Status: <status>`, and the refusal's body is never read; an amount that cannot be converted throws TypeError first |
| PayStack.TransportFailureEscapes | src/routes/api/pay-stack/+server.ts:15-22 | nothing is caught, so a failed `fetch` escapes to the framework, unless the amount's conversion threw first |
| PayStack.RefusalsDiffer | src/routes/api/pay-stack/+server.ts:24-26 | for the same refusal, the checkout passes the gateway's status on while the transfer answers 500; both answer 500 when the amount cannot be converted |
| PayStack.OkForwardsData | src/routes/api/pay-stack/+server.ts:28-29 | an ok reply is answered with 200 and exactly the gateway's `data`, or `{}` when it has none |
| CardStore.WithQuantity | src/lib/cardStore.ts:19-23 | `updateQuantity(n)` sets the quantity to `n`, multiplies the amount by `n`, and keeps the category |
| CardStore.SetDetailsReplaces | src/lib/cardStore.ts:18 | `setDetails(d)` leaves exactly `d`, whatever came before |
| CardStore.UpdatesCompound | src/lib/cardStore.ts:19-23 | successive updates compound: the amount is the starting amount times every quantity, and the quantity is the last one |
| CardStore.InitialAmountStaysZero | src/lib/cardStore.ts:10-22 | from the initial state, finite quantities never move the amount off 0 |
| CardStore.InfiniteQuantityGivesNaN | src/lib/cardStore.ts:10-22 | from the initial state, an infinite quantity turns the amount into NaN |
| CardStore.CategoryFromLastSet | src/lib/cardStore.ts:18-20 | the category is the one from the last `setDetails`, or the initial one if there was none |

## Left out

- Framework plumbing is not modelled: SvelteKit's request pipeline, `event.locals`, cookie serialisation and URI-encoding, and Svelte's `subscribe`. Console logging is left out too. The hook's `resolve` is a function parameter.
- I/O is not modelled: `fetch`, the `Authorization` header, environment variables, and the nodemailer transporter and its TLS options. Each one's outcome is a parameter. `VITE_MAILERSEND_FROM_EMAIL` is taken to be a string.
- JSON numbers are integers only. The parser refuses fractions and exponents. No modelled token contains either.
- Number serialisation does not print numbers of 1e21 and above in exponent form.
- `JSON.stringify` does not move integer-like keys to the front.
- JavaScript numbers are exact reals with NaN and the infinities. Rounding, overflow and negative zero are not modelled.
- The outbound payloads are kept as values, not serialised. `JSON.stringify` would write a NaN amount as `null` and drop `undefined` fields.
- Node's `Buffer` decoding is lenient: it also decodes the base64url characters `-` and `_` (as 62 and 63), skips every other character outside the alphabet, and replaces bad UTF-8 with U+FFFD. The model decodes strictly. A forged cookie that Node would still accept is classified as malformed here.
- Lone surrogates cannot be expressed, because Dafny strings hold Unicode scalar values. The JSON parser refuses `\u` escapes of lone surrogates.
- Property reads model only the members of parsed JSON. Built-in properties such as `length` are not modelled. Of the inherited methods, only the effect of an own `toString` member on conversion is modelled.
- Base64.Decode: it decodes strictly. Node's `Buffer.from(s, 'base64')` also accepts unpadded text, decodes `-` and `_` as 62 and 63, and skips every other character outside the alphabet. A cookie Node would decode can therefore be refused here.
- Hooks.BadLengthIsMalformed: this holds for the strict decoder only. Node decodes an unpadded cookie, such as a valid token with its `=` padding removed, and that cookie can authenticate.
- LoginSession.Post: a parsed object keeps duplicate keys. `JSON.parse` keeps one property per key: the last value, at the first key's position. A `userId` object with a duplicate key is therefore written into the token with both members, where Node writes one. Property reads agree, because the last member wins.
- JsonRoundTrip.MembersRoundTrip: the round trip also covers member lists with duplicate keys. JavaScript never holds such a list, because `JSON.parse` collapses duplicates.
- LoginSession.Post: the `catch` returning 500 `Internal server error` (src/routes/api/login-session/+server.ts:32-35) has no case. Only engine or framework limits reach it, such as the RangeError `JSON.stringify` throws on very deep nesting or the cookie-size check `cookies.set` makes in development mode, and the model has neither.
- CardStore: `setDetails` is given a well-typed `CardDetails`. The store does not check this at run time.
- src/lib/firebase.ts, src/lib/sendVerificationEmail.ts, src/routes/+layout.server.ts, src/lib/stores.ts, src/lib/sessionStore.ts and src/lib/tawk.ts are not part of this model. They are calls into Firebase, UI state and DOM script injection, with no local decisions.

## Findings

| source | as written | input that shows it | evidently intended | confidence | as-written member | corrected member |
|---|---|---|---|---|---|---|
| src/routes/api/login-session/+server.ts:13-25 | `maxAge: expiresIn` passes 432000000, a number of milliseconds, but `maxAge` counts seconds. The cookie asks to live about 5000 days, while the token in it expires after 5. Browsers that follow the current cookie draft (RFC 6265bis) cap Max-Age at 400 days, so in practice the cookie outlives its token by up to 395 days. | Log in at `t0` and send a request at `t0 + 432000000`. The browser still sends the cookie, and the hook finds it expired and deletes it. | `maxAge: expiresIn / 1000`, so the cookie and the token expire together | high, not executed | SessionLifecycle.CookieAliveAfterExpiry | SessionLifecycle.IntendedCookieMatchesToken |
| src/routes/api/initiate-transfer/+server.ts:26-39 | The `throw error(response.status, errorData.message …)` inside the `try` is caught by the handler's own `catch`, which throws a 500 instead. The gateway's status and message never reach the client. | The gateway answers 400 `{message: "Insufficient balance"}`. The client gets 500 `Internal Server Error`. | SvelteKit's own errors pass through the `catch` unchanged | high, not executed | InitiateTransfer.GatewayErrorIsMasked | InitiateTransfer.IntendedPropagatesGatewayError |

=== FILE: base64.dfy ===
/**
 * The base64 encoding of section 4 of RFC 4648 (alphabet `A-Z a-z 0-9 + /`,
 * `=` padding), as `buffer.toString('base64')` writes it and
 * `Buffer.from(text, 'base64')` reads it back.
 */
module Base64 {
  import opened Maybe
  import opened Bytes

  type sextet = i: int | 0 <= i < 64

  /** Value i of the alphabet in Table 1 of RFC 4648. */
  function CharOf(i: sextet): char
  {
    if i < 26 then ('A' as int + i) as char
    else if i < 52 then ('a' as int + (i - 26)) as char
    else if i < 62 then ('0' as int + (i - 52)) as char
    else if i == 62 then '+'
    else '/'
  }

  /** Inverse of `CharOf`: `None` for `=` and for every character outside the alphabet. */
  function IndexOf(c: char): (r: Option<sextet>)
    ensures r.Some? ==> CharOf(r.value) == c
  {
    if 'A' <= c <= 'Z' then Some(c as int - 'A' as int)
    else if 'a' <= c <= 'z' then Some(c as int - 'a' as int + 26)
    else if '0' <= c <= '9' then Some(c as int - '0' as int + 52)
    else if c == '+' then Some(62)
    else if c == '/' then Some(63)
    else None
  }

  lemma IndexOfCharOf(i: sextet)
    ensures IndexOf(CharOf(i)) == Some(i)
  {
  }

  /** Three octets as four characters. */
  function EncodeGroup(b0: byte, b1: byte, b2: byte): string
  {
    [CharOf(b0 / 4), CharOf((b0 % 4) * 16 + b1 / 16), CharOf((b1 % 16) * 4 + b2 / 64), CharOf(b2 % 64)]
  }

  /** Every three input octets become four characters; a final one or two octets are padded with `=`. */
  function Encode(bs: seq<byte>): string
    decreases |bs|
  {
    if |bs| == 0 then ""
    else if |bs| == 1 then [CharOf(bs[0] / 4), CharOf((bs[0] % 4) * 16), '=', '=']
    else if |bs| == 2 then
      [CharOf(bs[0] / 4), CharOf((bs[0] % 4) * 16 + bs[1] / 16), CharOf((bs[1] % 16) * 4), '=']
    else EncodeGroup(bs[0], bs[1], bs[2]) + Encode(bs[3..])
  }

  /** Four characters for every group of three octets, the last group padded. */
  lemma {:induction false} EncodeLength(bs: seq<byte>)
    ensures |Encode(bs)| == 4 * ((|bs| + 2) / 3)
    decreases |bs|
  {
    if |bs| > 2 {
      EncodeLength(bs[3..]);
      assert Encode(bs) == EncodeGroup(bs[0], bs[1], bs[2]) + Encode(bs[3..]);
      assert (|bs| + 2) / 3 == (|bs[3..]| + 2) / 3 + 1;
    }
  }

  /** Four alphabet values as three octets. */
  function DecodeGroup(c0: sextet, c1: sextet, c2: sextet, c3: sextet): seq<byte>
  {
    [c0 * 4 + c1 / 16, (c1 % 16) * 16 + c2 / 4, (c2 % 4) * 64 + c3]
  }

  /**
   * The last quantum: four alphabet characters, or two or three followed by
   * `=` padding. Bits the padding leaves unused are dropped, as Node does.
   */
  function DecodeFinal(q: string): Option<seq<byte>>
    requires |q| == 4
  {
    match (IndexOf(q[0]), IndexOf(q[1]), IndexOf(q[2]), IndexOf(q[3]))
    case (Some(c0), Some(c1), Some(c2), Some(c3)) => Some(DecodeGroup(c0, c1, c2, c3))
    case (Some(c0), Some(c1), Some(c2), None) =>
      if q[3] == '=' then Some(DecodeGroup(c0, c1, c2, 0)[..2]) else None
    case (Some(c0), Some(c1), None, None) =>
      if q[2] == '=' && q[3] == '=' then Some(DecodeGroup(c0, c1, 0, 0)[..1]) else None
    case _ => None
  }

  /**
   * Strict decoding: the text must be a whole number of four-character quanta
   * of the alphabet, with padding only at the very end.
   */
  function Decode(s: string): (r: Option<seq<byte>>)
    ensures r.Some? ==> |s| % 4 == 0
    decreases |s|
  {
    if |s| == 0 then Some([])
    else if |s| < 4 then None
    else if |s| == 4 then DecodeFinal(s)
    else match (IndexOf(s[0]), IndexOf(s[1]), IndexOf(s[2]), IndexOf(s[3]))
      case (Some(c0), Some(c1), Some(c2), Some(c3)) =>
        (match Decode(s[4..])
         case None => None
         case Some(rest) => Some(DecodeGroup(c0, c1, c2, c3) + rest))
      case _ => None
  }

  lemma GroupRoundTrip(b0: byte, b1: byte, b2: byte)
    ensures DecodeGroup(b0 / 4, (b0 % 4) * 16 + b1 / 16, (b1 % 16) * 4 + b2 / 64, b2 % 64) == [b0, b1, b2]
  {
    var c1 := (b0 % 4) * 16 + b1 / 16;
    var c2 := (b1 % 16) * 4 + b2 / 64;
    assert c1 / 16 == b0 % 4 && c1 % 16 == b1 / 16;
    assert c2 / 4 == b1 % 16 && c2 % 4 == b2 / 64;
  }

  /** A single trailing octet, written as two characters and `==`. */
  lemma DecodeEncodeOne(b0: byte)
    ensures Decode(Encode([b0])) == Some([b0])
  {
    var q := Encode([b0]);
    IndexOfCharOf(b0 / 4);
    IndexOfCharOf((b0 % 4) * 16);
    GroupRoundTrip(b0, 0, 0);
    assert IndexOf(q[2]).None? && IndexOf(q[3]).None?;
    assert DecodeGroup(b0 / 4, (b0 % 4) * 16, 0, 0)[..1] == [b0];
  }

  /** Two trailing octets, written as three characters and `=`. */
  lemma DecodeEncodeTwo(b0: byte, b1: byte)
    ensures Decode(Encode([b0, b1])) == Some([b0, b1])
  {
    var q := Encode([b0, b1]);
    IndexOfCharOf(b0 / 4);
    IndexOfCharOf((b0 % 4) * 16 + b1 / 16);
    IndexOfCharOf((b1 % 16) * 4);
    GroupRoundTrip(b0, b1, 0);
    assert IndexOf(q[3]).None?;
    assert DecodeGroup(b0 / 4, (b0 % 4) * 16 + b1 / 16, (b1 % 16) * 4, 0)[..2] == [b0, b1];
  }

  /** One step of `Decode` on a full quantum followed by more text. */
  lemma DecodeStep(s: string, c0: sextet, c1: sextet, c2: sextet, c3: sextet)
    requires |s| > 4
    requires IndexOf(s[0]) == Some(c0) && IndexOf(s[1]) == Some(c1)
    requires IndexOf(s[2]) == Some(c2) && IndexOf(s[3]) == Some(c3)
    ensures Decode(s) ==
      match Decode(s[4..])
      case None => None
      case Some(tail) => Some(DecodeGroup(c0, c1, c2, c3) + tail)
  {
  }

  /** A quantum of four alphabet characters followed by more text decodes quantum by quantum. */
  lemma QuantumThen(c0: sextet, c1: sextet, c2: sextet, c3: sextet, rest: string)
    requires |rest| > 0
    ensures Decode([CharOf(c0), CharOf(c1), CharOf(c2), CharOf(c3)] + rest) ==
      if Decode(rest).None? then None else Some(DecodeGroup(c0, c1, c2, c3) + Decode(rest).value)
  {
    var s := [CharOf(c0), CharOf(c1), CharOf(c2), CharOf(c3)] + rest;
    IndexOfCharOf(c0);
    IndexOfCharOf(c1);
    IndexOfCharOf(c2);
    IndexOfCharOf(c3);
    assert s[4..] == rest;
    DecodeStep(s, c0, c1, c2, c3);
  }

  /** A full group followed by the encoding of the rest decodes group by group. */
  lemma DecodeGroupThen(b0: byte, b1: byte, b2: byte, rest: string)
    requires |rest| > 0
    ensures Decode(EncodeGroup(b0, b1, b2) + rest) ==
      if Decode(rest).None? then None else Some([b0, b1, b2] + Decode(rest).value)
  {
    var c0, c1, c2, c3 := b0 / 4, (b0 % 4) * 16 + b1 / 16, (b1 % 16) * 4 + b2 / 64, b2 % 64;
    assert EncodeGroup(b0, b1, b2) == [CharOf(c0), CharOf(c1), CharOf(c2), CharOf(c3)];
    QuantumThen(c0, c1, c2, c3, rest);
    GroupRoundTrip(b0, b1, b2);
  }

  /** A lone full group is a final quantum of four alphabet characters. */
  lemma DecodeEncodeThree(b0: byte, b1: byte, b2: byte)
    ensures Decode(EncodeGroup(b0, b1, b2)) == Some([b0, b1, b2])
  {
    IndexOfCharOf(b0 / 4);
    IndexOfCharOf((b0 % 4) * 16 + b1 / 16);
    IndexOfCharOf((b1 % 16) * 4 + b2 / 64);
    IndexOfCharOf(b2 % 64);
    GroupRoundTrip(b0, b1, b2);
  }

  /** Up to three octets are one final quantum. */
  lemma DecodeEncodeShort(bs: seq<byte>)
    requires |bs| <= 3
    ensures Decode(Encode(bs)) == Some(bs)
  {
    if |bs| == 1 {
      Short1(bs);
    } else if |bs| == 2 {
      Short2(bs);
    } else if |bs| == 3 {
      Short3(bs);
    }
  }

  lemma Short1(bs: seq<byte>)
    requires |bs| == 1
    ensures Decode(Encode(bs)) == Some(bs)
  {
    assert bs == [bs[0]];
    DecodeEncodeOne(bs[0]);
  }

  lemma Short2(bs: seq<byte>)
    requires |bs| == 2
    ensures Decode(Encode(bs)) == Some(bs)
  {
    assert bs == [bs[0], bs[1]];
    DecodeEncodeTwo(bs[0], bs[1]);
  }

  lemma Short3(bs: seq<byte>)
    requires |bs| == 3
    ensures Decode(Encode(bs)) == Some(bs)
  {
    assert bs == [bs[0], bs[1], bs[2]];
    DecodeEncodeThree(bs[0], bs[1], bs[2]);
  }

  /** Longer input: the first group comes back in front of whatever the rest decodes to. */
  lemma DecodeEncodeLong(bs: seq<byte>)
    requires |bs| > 3
    ensures Decode(Encode(bs)) ==
      if Decode(Encode(bs[3..])).None? then None else Some([bs[0], bs[1], bs[2]] + Decode(Encode(bs[3..])).value)
  {
    assert Encode(bs) == EncodeGroup(bs[0], bs[1], bs[2]) + Encode(bs[3..]);
    EncodeLength(bs[3..]);
    DecodeGroupThen(bs[0], bs[1], bs[2], Encode(bs[3..]));
  }

  lemma SplitFirstGroup(bs: seq<byte>)
    requires |bs| >= 3
    ensures [bs[0], bs[1], bs[2]] + bs[3..] == bs
  {
  }

  /** `Buffer.from(buffer.toString('base64'), 'base64')` gives back the same octets. */
  lemma {:induction false} DecodeEncode(bs: seq<byte>)
    ensures Decode(Encode(bs)) == Some(bs)
    decreases |bs|
  {
    if |bs| <= 3 {
      DecodeEncodeShort(bs);
    } else {
      DecodeEncodeLong(bs);
      DecodeEncode(bs[3..]);
      SplitFirstGroup(bs);
    }
  }
}

=== FILE: card_store.dfy ===
/**
 * The card-details store (src/lib/cardStore.ts): a writable store holding
 * the gift card being ordered. Its state is a pure fold of the commands the
 * pages send it; subscription is Svelte plumbing and is not part of the model.
 */
module CardStore {
  import opened Maybe
  import opened Js

  /** The store's value. `amount` and `quantity` are JavaScript numbers. */
  datatype CardDetails = CardDetails(category: string, amount: Number, quantity: Number)

  /** The value the store is created with. */
  const Initial: CardDetails := CardDetails("", Finite(0.0), Finite(1.0))

  /** What a page can ask of the store. */
  datatype Command = SetDetails(details: CardDetails) | UpdateQuantity(quantity: Number)

  /**
   * `updateQuantity(n)`: the quantity becomes `n` and the amount is
   * multiplied by `n` (the stored amount, not a unit price).
   */
  function WithQuantity(d: CardDetails, n: Number): (r: CardDetails)
    ensures r.category == d.category
    ensures r.quantity == n
    ensures d.amount.Finite? && n.Finite? ==> r.amount == Finite(d.amount.value * n.value)
    ensures r.amount == NaN <==>
              (d.amount == NaN || n == NaN ||
               (d.amount.Infinity? && n == Finite(0.0)) || (n.Infinity? && d.amount == Finite(0.0)))
  {
    d.(quantity := n, amount := Multiply(d.amount, n))
  }

  /** One command applied to the current value. */
  function Step(d: CardDetails, c: Command): CardDetails
  {
    match c
    case SetDetails(details) => details
    case UpdateQuantity(n) => WithQuantity(d, n)
  }

  /** The value after the commands, applied in order from `start`. */
  function Run(start: CardDetails, cs: seq<Command>): CardDetails
  {
    if |cs| == 0 then start else Step(Run(start, cs[..|cs| - 1]), cs[|cs| - 1])
  }

  /** The last `setDetails` among the commands, if any. */
  function LastSet(cs: seq<Command>): Option<CardDetails>
  {
    if |cs| == 0 then None
    else if cs[|cs| - 1].SetDetails? then Some(cs[|cs| - 1].details)
    else LastSet(cs[..|cs| - 1])
  }

  /** `updateQuantity` once for each quantity, in order. */
  function Updates(qs: seq<real>): (cs: seq<Command>)
    ensures |cs| == |qs|
    ensures forall i :: 0 <= i < |qs| ==> cs[i] == UpdateQuantity(Finite(qs[i]))
  {
    if |qs| == 0 then [] else Updates(qs[..|qs| - 1]) + [UpdateQuantity(Finite(qs[|qs| - 1]))]
  }

  /** The product of the quantities. */
  function Product(qs: seq<real>): real
  {
    if |qs| == 0 then 1.0 else Product(qs[..|qs| - 1]) * qs[|qs| - 1]
  }

  // ------------------------------------------------------------------ lemmas

  /** `setDetails` replaces the whole value, whatever it was. */
  lemma SetDetailsReplaces(start: CardDetails, cs: seq<Command>, d: CardDetails)
    ensures Run(start, cs + [SetDetails(d)]) == d
  {
    assert (cs + [SetDetails(d)])[..|cs|] == cs;
  }

  /**
   * Successive `updateQuantity` calls compound: the amount is the starting
   * amount times every quantity given, and the quantity is the last one.
   */
  lemma {:induction false} UpdatesCompound(start: CardDetails, qs: seq<real>)
    requires start.amount.Finite?
    ensures Run(start, Updates(qs)).amount == Finite(start.amount.value * Product(qs))
    ensures Run(start, Updates(qs)).quantity == if |qs| == 0 then start.quantity else Finite(qs[|qs| - 1])
    ensures Run(start, Updates(qs)).category == start.category
  {
    if |qs| > 0 {
      var init := qs[..|qs| - 1];
      var cs := Updates(qs);
      assert cs[..|cs| - 1] == Updates(init);
      UpdatesCompound(start, init);
      var a := start.amount.value;
      assert a * Product(init) * qs[|qs| - 1] == a * (Product(init) * qs[|qs| - 1]);
    }
  }

  /** From the initial value, finite quantities never move the amount off zero. */
  lemma InitialAmountStaysZero(qs: seq<real>)
    ensures Run(Initial, Updates(qs)).amount == Finite(0.0)
  {
    UpdatesCompound(Initial, qs);
  }

  /** The zero amount is not preserved by an infinite quantity: `0 * Infinity` is NaN. */
  lemma InfiniteQuantityGivesNaN()
    ensures Run(Initial, [UpdateQuantity(Infinity(false))]).amount == NaN
  {
    assert [UpdateQuantity(Infinity(false))][..0] == [];
  }

  /**
   * The category is the one of the last `setDetails`, or the starting one if
   * there was none: `updateQuantity` never changes it.
   */
  lemma {:induction false} CategoryFromLastSet(start: CardDetails, cs: seq<Command>)
    ensures Run(start, cs).category == if LastSet(cs).Some? then LastSet(cs).value.category else start.category
  {
    if |cs| > 0 {
      CategoryFromLastSet(start, cs[..|cs| - 1]);
    }
  }
}

=== FILE: gateway.dfy ===
/**
 * What the two payment handlers share: the payment gateway's reply, the
 * conversion to minor units, and reading `data` out of a successful reply.
 */
module Gateway {
  import opened Maybe
  import opened Json
  import opened Js
  import opened Http

  /**
   * The gateway's answer to the one `fetch` a handler makes: a status with a
   * body (`None` when the body is not JSON), or no response at all.
   */
  datatype Response = Responded(status: int, body: Option<Json>) | TransportFail

  /** `response.ok`: a status in the range 200 to 299. */
  predicate IsOk(status: int) { 200 <= status <= 299 }

  /**
   * `amount * 100`: naira to kobo, with JavaScript's conversion of the field
   * to a number; `None` is the TypeError of a value that cannot be converted.
   */
  function MinorUnits(amount: JsValue): (m: Option<Number>)
    ensures m.None? <==> amount.Defined? && !Convertible(amount.json)
    ensures amount.Defined? && amount.json.JNumber? ==> m == Some(Finite(100.0 * amount.json.n as real))
    ensures m.Some? ==> (m.value == NaN <==> ToNumber(amount).value == NaN)
  {
    match ToNumber(amount)
    case None => None
    case Some(x) => Some(Times100(x))
  }

  /** The body is an object or primitive whose `amount` survives `amount * 100`. */
  predicate AmountConverts(body: Json)
  {
    body != JNull && MinorUnits(Get(body, "amount").value).Some?
  }

  /**
   * `const result = await response.json(); return json({ data: result.data })`.
   * A missing `data` is dropped by `JSON.stringify`, leaving `{}`.
   */
  function ReadData(body: Option<Json>): (r: Reply)
    ensures r.Respond? ==> r.status == 200
  {
    match body
    case None => Throws(SyntaxError)
    case Some(result) =>
      match Get(result, "data")
      case ReadOfNull => Throws(TypeError)
      case Read(Undefined) => Respond(200, JObject([]))
      case Read(Defined(data)) => Respond(200, Object1("data", data))
  }

  /** The conversion goes through `Number(…)`: a numeric string is converted. */
  lemma NumericTextAmount()
    ensures MinorUnits(Defined(JString("10.5"))) == Some(Finite(1050.0))
  {
    TenPointFive();
  }

  lemma TenPointFive()
    ensures StringToNumber("10.5") == Finite(10.5)
  {
    FractionDecimal("10", "5");
    assert "10" + "." + "5" == "10.5";
    assert DigitsValue("10") == 10 && DigitsValue("5") == 5 && Pow10Nat(1) == 10;
    DecimalText("10.5", 10.5);
  }

  /** Text that is not a number, and a missing field, both become NaN. */
  lemma NonNumericAmount()
    ensures MinorUnits(Defined(JString("ten"))) == Some(NaN)
    ensures MinorUnits(Undefined) == Some(NaN)
  {
    assert Trim("ten") == "ten";
    assert SplitDecimal("ten") == None by {
      assert DigitRun("ten") == 0;
    }
  }

  /** An amount that is an object with its own `toString` makes `amount * 100` throw. */
  lemma UnconvertibleAmount()
    ensures MinorUnits(Defined(JObject([Member("toString", JNumber(0))]))) == None
  {
  }

  /** The one outbound `fetch` a handler makes: where it goes and what it carries. */
  datatype Outbound<P> = Outbound(url: string, payload: P)

  /** A successful reply carries exactly the gateway's `data`. */
  lemma ReadDataForwards(members: seq<Member>)
    ensures LastValue(members, "data").Defined? ==>
      ReadData(Some(JObject(members))) == Respond(200, Object1("data", LastValue(members, "data").json))
  {
  }
}

/** `POST /api/initiate-transfer` (src/routes/api/initiate-transfer/+server.ts): a payout from the balance. */
module InitiateTransfer {
  import opened Maybe
  import opened Json
  import opened Js
  import opened Http
  import opened Gateway

  const Endpoint: string := "https://api.paystack.co/transfer"

  /** The body sent to the gateway; every other field of the request is dropped. */
  datatype Payload = Payload(source: string, amount: Number, recipient: JsValue, reason: JsValue)

  datatype Result = Result(request: Option<Outbound<Payload>>, reply: Reply)

  const GenericFailure: Exception := Error(500, Defined(JString("Internal Server Error")))

  /**
   * The `try` block: the payload, the request, and what the block completes
   * with. A non-ok reply throws `error(status, message)` here; `Post` shows
   * what the `catch` then makes of it.
   */
  function Attempt(body: Option<Json>, gateway: Response): (r: Result)
    ensures r.reply.Respond? ==> r.reply.status == 200
    ensures r.request.Some? <==> body.Some? && AmountConverts(body.value)
    ensures r.request.Some? ==>
      r.request.value == Outbound(Endpoint, Payload("balance", MinorUnits(Get(body.value, "amount").value).value,
                                                    Get(body.value, "recipient_code").value, Get(body.value, "reason").value))
    ensures r.request.Some? ==> r.reply == Answer(gateway)
    ensures body.Some? && !AmountConverts(body.value) ==> r.reply == Throws(TypeError)
    ensures body.None? ==> r == Result(None, Throws(SyntaxError))
  {
    match body
    case None => Result(None, Throws(SyntaxError))
    case Some(b) =>
      match (Get(b, "amount"), Get(b, "recipient_code"), Get(b, "reason"))
      case (Read(amount), Read(recipient), Read(reason)) =>
        (match MinorUnits(amount)
         case None => Result(None, Throws(TypeError))
         case Some(units) =>
           var request := Outbound(Endpoint, Payload("balance", units, recipient, reason));
           Result(Some(request), Answer(gateway)))
      case _ => Result(None, Throws(TypeError))
  }

  /** What the `try` block completes with once the gateway has answered. */
  function Answer(gateway: Response): (r: Reply)
    ensures r.Respond? ==> r.status == 200
    ensures r.Respond? <==>
      gateway.Responded? && IsOk(gateway.status) && gateway.body.Some? && gateway.body.value != JNull
    ensures r.Throws? && r.ex.HttpError? ==> gateway.Responded? && !IsOk(gateway.status) && r.ex.status == gateway.status
    ensures gateway.Responded? && 400 <= gateway.status <= 599 && gateway.body.Some? && gateway.body.value != JNull ==>
      r.Throws? && r.ex.HttpError? && r.ex.status == gateway.status
    ensures gateway.TransportFail? ==> r == Throws(FetchFailed)
    ensures gateway.Responded? && gateway.body.None? ==> r == Throws(SyntaxError)
    ensures gateway.Responded? && gateway.body == Some(JNull) ==> r == Throws(TypeError)
  {
    match gateway
    case TransportFail => Throws(FetchFailed)
    case Responded(status, body) =>
      if IsOk(status) then ReadData(body)
      else
        match body
        case None => Throws(SyntaxError)
        case Some(errorData) =>
          match Get(errorData, "message")
          case ReadOfNull => Throws(TypeError)
          case Read(m) =>
            Throws(Error(status, if Truthy(m) then m else Defined(JString("Failed to initiate transfer"))))
  }

  /**
   * The handler as written: its `catch` receives every exception of the
   * `try` block, the gateway's own `error(status, …)` included, and throws
   * a 500 in its place.
   */
  function Post(body: Option<Json>, gateway: Response): (r: Result)
    ensures r.request == Attempt(body, gateway).request
    ensures Attempt(body, gateway).reply.Respond? ==> r.reply == Attempt(body, gateway).reply
    ensures Attempt(body, gateway).reply.Throws? ==> r.reply == Throws(GenericFailure)
    ensures r.reply.Respond? ==> r.reply.status == 200
  {
    var attempt := Attempt(body, gateway);
    if attempt.reply.Throws? then Result(attempt.request, Throws(GenericFailure)) else attempt
  }

  /**
   * The handler with the `catch` letting SvelteKit's own errors through, as
   * the `throw error(response.status, …)` evidently intends.
   */
  function PostIntended(body: Option<Json>, gateway: Response): (r: Result)
    ensures r.request == Post(body, gateway).request
    ensures r.reply.Respond? ==> r.reply == Post(body, gateway).reply
  {
    var attempt := Attempt(body, gateway);
    if attempt.reply.Throws? && !attempt.reply.ex.HttpError? then Result(attempt.request, Throws(GenericFailure))
    else attempt
  }

  // ------------------------------------------------------------------ lemmas

  /**
   * As written, the gateway's refusal never reaches the caller: whatever
   * status and message a non-ok reply carries, the handler ends in the same
   * 500 "Internal Server Error".
   */
  lemma GatewayErrorIsMasked(body: Option<Json>, s1: int, b1: Option<Json>, s2: int, b2: Option<Json>)
    requires !IsOk(s1) && !IsOk(s2)
    ensures Post(body, Responded(s1, b1)).reply == Post(body, Responded(s2, b2)).reply
    ensures StatusOf(Post(body, Responded(s1, b1)).reply) == 500
  {
  }

  /** Every way the request can fail (transport, parsing, gateway refusal) ends as a 500; success is a 200. */
  lemma OnlyTwoOutcomes(body: Option<Json>, gateway: Response)
    ensures StatusOf(Post(body, gateway).reply) in {200, 500}
    ensures StatusOf(Post(body, gateway).reply) == 200 <==>
      body.Some? && AmountConverts(body.value) && gateway.Responded? && IsOk(gateway.status) &&
      gateway.body.Some? && gateway.body.value != JNull
  {
  }

  /**
   * With the intended `catch`, a gateway refusal whose body is a JSON object
   * reaches the caller with the gateway's status, and with its message when
   * that message is truthy. An amount that cannot be converted still fails
   * before the request, with the generic 500.
   */
  lemma IntendedPropagatesGatewayError(body: Json, status: int, members: seq<Member>)
    requires body != JNull && 400 <= status <= 599
    ensures var r := PostIntended(Some(body), Responded(status, Some(JObject(members))));
      var m := LastValue(members, "message");
      AmountConverts(body) ==>
        StatusOf(r.reply) == status &&
        r.reply == Throws(HttpError(status, if Truthy(m) then m else Defined(JString("Failed to initiate transfer"))))
    ensures !AmountConverts(body) ==>
      PostIntended(Some(body), Responded(status, Some(JObject(members)))) == Result(None, Throws(GenericFailure))
  {
  }

  /** An ok reply is answered with exactly the gateway's `data`, or `{}` when it has none. */
  lemma OkForwardsData(body: Json, status: int, members: seq<Member>)
    requires AmountConverts(body) && IsOk(status)
    ensures Post(Some(body), Responded(status, Some(JObject(members)))).reply ==
      Respond(200, if LastValue(members, "data").Defined? then Object1("data", LastValue(members, "data").json) else JObject([]))
  {
  }
}

/** `POST /api/pay-stack` (src/routes/api/pay-stack/+server.ts): initialising a checkout. */
module PayStack {
  import opened Maybe
  import opened Json
  import opened Js
  import opened Http
  import opened Gateway
  import InitiateTransfer

  const Endpoint: string := "https://api.paystack.co/transaction/initialize"

  /** The body sent to the gateway. */
  datatype Payload = Payload(email: JsValue, amount: Number, firstName: JsValue, lastName: JsValue, description: JsValue)

  datatype Result = Result(request: Option<Outbound<Payload>>, reply: Reply)

  /**
   * The handler. There is no `try`: a body that is not JSON, a rejected
   * `fetch` and an unreadable reply all escape to the framework, and a
   * non-ok reply throws `error(status, …)` with the gateway's own status.
   */
  function Post(body: Option<Json>, gateway: Response): (r: Result)
    ensures r.reply.Respond? ==> r.reply.status == 200
    ensures r.request.Some? <==> body.Some? && AmountConverts(body.value)
    ensures r.request.Some? ==>
      r.request.value == Outbound(Endpoint, Payload(Get(body.value, "email").value, MinorUnits(Get(body.value, "amount").value).value,
                                                    Get(body.value, "firstName").value, Get(body.value, "lastName").value,
                                                    Get(body.value, "description").value))
    ensures r.request.Some? ==> r.reply == Answer(gateway)
    ensures body.Some? && !AmountConverts(body.value) ==> r.reply == Throws(TypeError)
    ensures body.None? ==> r == Result(None, Throws(SyntaxError))
  {
    match body
    case None => Result(None, Throws(SyntaxError))
    case Some(b) =>
      match (Get(b, "email"), Get(b, "amount"), Get(b, "firstName"), Get(b, "lastName"), Get(b, "description"))
      case (Read(email), Read(amount), Read(firstName), Read(lastName), Read(description)) =>
        (match MinorUnits(amount)
         case None => Result(None, Throws(TypeError))
         case Some(units) =>
           var request := Outbound(Endpoint, Payload(email, units, firstName, lastName, description));
           Result(Some(request), Answer(gateway)))
      case _ => Result(None, Throws(TypeError))
  }

  /** What the handler ends with once the gateway has answered. */
  function Answer(gateway: Response): (r: Reply)
    ensures r.Respond? <==>
      gateway.Responded? && IsOk(gateway.status) && gateway.body.Some? && gateway.body.value != JNull
    ensures gateway.Responded? && !IsOk(gateway.status) ==>
      StatusOf(r) == if 400 <= gateway.status <= 599 then gateway.status else 500
    ensures gateway.TransportFail? ==> r == Throws(FetchFailed)
    ensures gateway.Responded? && IsOk(gateway.status) && gateway.body.None? ==> r == Throws(SyntaxError)
    ensures gateway.Responded? && IsOk(gateway.status) && gateway.body == Some(JNull) ==> r == Throws(TypeError)
  {
    match gateway
    case TransportFail => Throws(FetchFailed)
    case Responded(status, body) =>
      if !IsOk(status) then Throws(Error(status, Defined(JString("HTTP error! Status: " + IntText(status)))))
      else ReadData(body)
  }

  // ------------------------------------------------------------------ lemmas

  /**
   * A refusal reaches the caller with the gateway's own status when that is
   * an error status (a 500 otherwise); the refusal's body is never read.
   */
  lemma PropagatesGatewayStatus(body: Json, status: int, b1: Option<Json>, b2: Option<Json>)
    requires body != JNull && !IsOk(status)
    ensures Post(Some(body), Responded(status, b1)).reply == Post(Some(body), Responded(status, b2)).reply
    ensures StatusOf(Post(Some(body), Responded(status, b1)).reply) ==
      if AmountConverts(body) && 400 <= status <= 599 then status else 500
    ensures !AmountConverts(body) ==> Post(Some(body), Responded(status, b1)).reply == Throws(TypeError)
    ensures AmountConverts(body) && 400 <= status <= 599 ==>
      Post(Some(body), Responded(status, b1)).reply ==
        Throws(HttpError(status, Defined(JString("HTTP error! Status: " + IntText(status)))))
  {
  }

  /**
   * Nothing is caught: a transport failure escapes to the framework as it
   * is, unless the amount's conversion already threw before the request.
   */
  lemma TransportFailureEscapes(body: Json)
    requires body != JNull
    ensures Post(Some(body), TransportFail).reply == if AmountConverts(body) then Throws(FetchFailed) else Throws(TypeError)
  {
  }

  /** An ok reply is answered with exactly the gateway's `data`, or `{}` when it has none. */
  lemma OkForwardsData(body: Json, status: int, members: seq<Member>)
    requires AmountConverts(body) && IsOk(status)
    ensures Post(Some(body), Responded(status, Some(JObject(members)))).reply ==
      Respond(200, if LastValue(members, "data").Defined? then Object1("data", LastValue(members, "data").json) else JObject([]))
  {
  }

  /**
   * The two payment handlers disagree on a gateway refusal: the checkout
   * passes the gateway's status on, the transfer turns it into a 500. They
   * agree on 500 only when the amount cannot be converted.
   */
  lemma RefusalsDiffer(body: Json, status: int, errorBody: Option<Json>)
    requires body != JNull && 400 <= status <= 599 && status != 500
    ensures StatusOf(Post(Some(body), Responded(status, errorBody)).reply) == if AmountConverts(body) then status else 500
    ensures StatusOf(InitiateTransfer.Post(Some(body), Responded(status, errorBody)).reply) == 500
  {
    InitiateTransfer.GatewayErrorIsMasked(Some(body), status, errorBody, status, errorBody);
  }
}

=== FILE: hooks.dfy ===
/**
 * The server hook that runs before every request (src/hooks.server.ts): it
 * reads the `session` cookie, decides whether the request is signed in, and
 * asks for the cookie to be deleted when it is unusable.
 */
module Hooks {
  import opened Maybe
  import opened Json
  import opened Js
  import SessionToken

  /** `event.locals.user`. */
  datatype User = User(id: JsValue)

  /** The instruction `cookies.delete(name, { path })`. */
  datatype DeleteCookie = DeleteCookie(name: string, path: string)

  /**
   * The four ways a request can go: no cookie; a cookie whose decoding threw
   * (caught by the hook); a decoded session that failed the expiry test; a
   * decoded session that passed it.
   */
  datatype Verdict = NoSession | Malformed | Expired | Authenticated(user: User)

  /**
   * The decision, with `now` standing for `Date.now()`. An empty cookie is
   * falsy and counts as no cookie. Only `expiresAt` is checked, with `>`
   * and JavaScript's coercions (a value that cannot be converted throws, and
   * the hook catches it); `userId` is copied as it is, even when absent.
   */
  function Classify(cookie: Option<string>, now: int): (v: Verdict)
    ensures v == NoSession <==> cookie.None? || cookie == Some("")
    ensures cookie.Some? && cookie != Some("") && SessionToken.Decode(cookie.value).None? ==> v == Malformed
    ensures v.Authenticated? ==>
      var data := SessionToken.Decode(cookie.value).value;
      data != JNull && GreaterThan(Get(data, "expiresAt").value, now) && v.user == User(Get(data, "userId").value)
    ensures v == Expired ==>
      var data := SessionToken.Decode(cookie.value).value;
      data != JNull && ToNumber(Get(data, "expiresAt").value).Some? && !GreaterThan(Get(data, "expiresAt").value, now)
    ensures cookie.Some? && cookie != Some("") && SessionToken.Decode(cookie.value).Some? ==>
      var data := SessionToken.Decode(cookie.value).value;
      (data == JNull || ToNumber(Get(data, "expiresAt").value).None? ==> v == Malformed) &&
      (data != JNull && ToNumber(Get(data, "expiresAt").value).Some? ==>
         v == if GreaterThan(Get(data, "expiresAt").value, now) then Authenticated(User(Get(data, "userId").value)) else Expired)
  {
    match cookie
    case None => NoSession
    case Some(c) =>
      if |c| == 0 then NoSession
      else
        match SessionToken.Decode(c)
        case None => Malformed
        case Some(data) =>
          match Get(data, "expiresAt")
          case ReadOfNull => Malformed
          case Read(expiresAt) =>
            match ToNumber(expiresAt)
            case None => Malformed
            case Some(x) =>
              if !Above(x, now) then Expired
              else
                match Get(data, "userId")
                case ReadOfNull => Malformed
                case Read(id) => Authenticated(User(id))
  }

  /** What the hook leaves behind: the user it set, the cookie it deleted, and what `resolve` answered. */
  datatype Handled<R> = Handled(user: Option<User>, deletion: Option<DeleteCookie>, response: R)

  /**
   * The hook itself. `resolve` stands for the rest of the request pipeline;
   * it receives the request's `locals.user` and is applied once on every path.
   */
  function Handle<R>(cookie: Option<string>, now: int, resolve: Option<User> -> R): (h: Handled<R>)
    ensures h.response == resolve(h.user)
    ensures h.user.Some? ==> h.deletion.None?
    ensures h.deletion.Some? ==> h.deletion.value == DeleteCookie("session", "/")
    ensures cookie.None? ==> h.user.None? && h.deletion.None?
    ensures h.user.Some? <==> Classify(cookie, now).Authenticated?
    ensures h.user.Some? ==> h.user.value == Classify(cookie, now).user
    ensures h.deletion.Some? <==> Classify(cookie, now) in {Malformed, Expired}
  {
    var verdict := Classify(cookie, now);
    var user := if verdict.Authenticated? then Some(verdict.user) else None;
    var deletion := if verdict.Malformed? || verdict.Expired? then Some(DeleteCookie("session", "/")) else None;
    Handled(user, deletion, resolve(user))
  }

  // ------------------------------------------------------------------ lemmas

  lemma DistinctKeys()
    ensures "expiresAt" != "userId"
  {
    assert |"expiresAt"| != |"userId"|;
  }

  /** Without a cookie, or with an empty one, nobody is signed in and nothing is deleted. */
  lemma NoCookieIsAnonymous<R>(now: int, resolve: Option<User> -> R)
    ensures Handle(None, now, resolve) == Handled(None, None, resolve(None))
    ensures Handle(Some(""), now, resolve) == Handled(None, None, resolve(None))
  {
  }

  /**
   * A well-formed session token authenticates its own `userId` exactly when
   * `expiresAt` is strictly later than now; otherwise it is expired.
   */
  lemma SessionDecision(s: SessionToken.Session, now: int)
    ensures Classify(Some(SessionToken.Encode(s)), now) ==
      if s.expiresAt > now then Authenticated(User(Defined(s.userId))) else Expired
  {
    SessionToken.DecodeEncode(s);
    var data := SessionToken.ToJson(s);
    DistinctKeys();
    LookupInPair(Member("userId", s.userId), Member("expiresAt", JNumber(s.expiresAt)), "expiresAt");
    LookupInPair(Member("userId", s.userId), Member("expiresAt", JNumber(s.expiresAt)), "userId");
    NumberComparison(s.expiresAt, now);
    DecidedBy(SessionToken.Encode(s), data, now);
  }

  /** `Classify` on a cookie that decodes to `data`, one step at a time. */
  lemma DecidedBy(c: string, data: Json, now: int)
    requires |c| > 0 && SessionToken.Decode(c) == Some(data)
    ensures Classify(Some(c), now) ==
      match Get(data, "expiresAt")
      case ReadOfNull => Malformed
      case Read(expiresAt) =>
        match ToNumber(expiresAt)
        case None => Malformed
        case Some(x) =>
          if !Above(x, now) then Expired
          else match Get(data, "userId")
            case ReadOfNull => Malformed
            case Read(id) => Authenticated(User(id))
  {
  }

  /** Text that is not a whole number of base64 quanta can never be decoded: the cookie is malformed. */
  lemma BadLengthIsMalformed(c: string, now: int)
    requires |c| % 4 != 0
    ensures Classify(Some(c), now) == Malformed
  {
  }

  /** A token holding JSON `null` makes `sessionData.expiresAt` throw; the hook catches it. */
  lemma NullPayloadIsMalformed(now: int)
    ensures Classify(Some(SessionToken.EncodePayload(JNull)), now) == Malformed
  {
    SessionToken.DecodeEncodePayload(JNull);
  }

  /** An object without `expiresAt` compares `undefined > now`, which is false: expired. */
  lemma MissingExpiryIsExpired(members: seq<Member>, now: int)
    requires forall i :: 0 <= i < |members| ==> members[i].key != "expiresAt"
    ensures Classify(Some(SessionToken.EncodePayload(JObject(members))), now) == Expired
  {
    SessionToken.DecodeEncodePayload(JObject(members));
    LastValueFindsLast(members, "expiresAt");
  }

  /**
   * An `expiresAt` that cannot be converted to a number (an object with its
   * own `toString`, or an array holding one) makes `>` throw; the hook
   * catches it and the cookie is malformed, not expired.
   */
  lemma UnconvertibleExpiryIsMalformed(members: seq<Member>, now: int)
    requires LastValue(members, "expiresAt").Defined? && !Convertible(LastValue(members, "expiresAt").json)
    ensures Classify(Some(SessionToken.EncodePayload(JObject(members))), now) == Malformed
  {
    SessionToken.DecodeEncodePayload(JObject(members));
  }

  /** A number, string, boolean or array at the top of the token has no `expiresAt` either: expired. */
  lemma PrimitivePayloadIsExpired(payload: Json, now: int)
    requires !payload.JNull? && !payload.JObject?
    ensures Classify(Some(SessionToken.EncodePayload(payload)), now) == Expired
  {
    SessionToken.DecodeEncodePayload(payload);
  }

  /**
   * `expiresAt` is compared after JavaScript's conversion to a number, so the
   * text of a number counts as that number: `"9999999999999"` passes the test.
   */
  lemma NumericTextExpiryIsCoerced(userId: Json, expiresAt: int, now: int)
    ensures var payload := JObject([Member("userId", userId), Member("expiresAt", JString(IntText(expiresAt)))]);
      Classify(Some(SessionToken.EncodePayload(payload)), now) ==
        if expiresAt > now then Authenticated(User(Defined(userId))) else Expired
  {
    var a, b := Member("userId", userId), Member("expiresAt", JString(IntText(expiresAt)));
    var payload := JObject([a, b]);
    SessionToken.DecodeEncodePayload(payload);
    DistinctKeys();
    LookupInPair(a, b, "expiresAt");
    LookupInPair(a, b, "userId");
    assert Get(payload, "expiresAt") == Read(Defined(JString(IntText(expiresAt))));
    assert Get(payload, "userId") == Read(Defined(userId));
    TextComparison(expiresAt, now);
    DecidedBy(SessionToken.EncodePayload(payload), payload, now);
  }

  /** `userId` is never checked: a live token without one signs the request in as `undefined`. */
  lemma UserIdIsNotValidated(expiresAt: int, now: int)
    requires expiresAt > now
    ensures var payload := JObject([Member("expiresAt", JNumber(expiresAt))]);
      Classify(Some(SessionToken.EncodePayload(payload)), now) == Authenticated(User(Undefined))
  {
    var a := Member("expiresAt", JNumber(expiresAt));
    var payload := JObject([a]);
    SessionToken.DecodeEncodePayload(payload);
    DistinctKeys();
    LookupInSingle(a, "userId");
    LookupInSingle(a, "expiresAt");
    DecidedBy(SessionToken.EncodePayload(payload), payload, now);
  }
}

=== FILE: http.dfy ===
/** What a SvelteKit request handler hands back to the framework. */
module Http {
  import opened Json
  import opened Js

  /** Everything a handler of this system can throw. */
  datatype Exception =
    | HttpError(status: int, message: JsValue)  // SvelteKit's `error(status, message)`
    | TypeError                                  // a property read on `null`, or destructuring `null`
    | SyntaxError                                // `JSON.parse` or `response.json()` on text that is not JSON
    | FetchFailed                                // `fetch` rejected: no response at all
    | InvalidStatus                              // `error(status, …)` refused a status outside 400 to 599

  /**
   * A handler either returns a JSON response (`json(body, {status})`) or lets
   * an exception reach the framework, which renders an `HttpError` with its
   * own status and every other exception as a 500.
   */
  datatype Reply = Respond(status: int, body: Json) | Throws(ex: Exception)

  /** The status the client finally sees. */
  function StatusOf(r: Reply): int
  {
    match r
    case Respond(status, _) => status
    case Throws(HttpError(status, _)) => status
    case Throws(_) => 500
  }

  /**
   * SvelteKit's `error(status, message)`: it throws an `HttpError` carrying
   * the status, except that a status outside 400 to 599 is itself an error.
   */
  function Error(status: int, message: JsValue): (e: Exception)
    ensures e.HttpError? <==> 400 <= status <= 599
    ensures e.HttpError? ==> e == HttpError(status, message)
    ensures !e.HttpError? ==> e == InvalidStatus
  {
    if 400 <= status <= 599 then HttpError(status, message) else InvalidStatus
  }

  /** What the client sees of `error(status, …)`: the status itself, or a 500 when it was out of range. */
  lemma ErrorStatus(status: int, message: JsValue)
    ensures StatusOf(Throws(Error(status, message))) == if 400 <= status <= 599 then status else 500
  {
  }

  /** A one-member object such as `{ error: 'No userId provided' }`. */
  function Object1(key: string, value: Json): Json
  {
    JObject([Member(key, value)])
  }
}

=== FILE: js.dfy ===
/**
 * The few JavaScript semantics the request handlers lean on when they read a
 * parsed JSON body: property access, truthiness (`!x`), conversion to text
 * (template literals) and to a number (`x > now`, `x * 100`).
 */
module Js {
  import opened Maybe
  import opened Json
  import JsonRoundTrip

  /** A value read out of parsed JSON: `undefined` when the property is missing. */
  datatype JsValue = Undefined | Defined(json: Json)

  /** Reading `base.key`: the value read, or the TypeError that `null.key` throws. */
  datatype Access = Read(value: JsValue) | ReadOfNull

  /** Member `i` is the last one written with `key`. */
  predicate IsLastWith(members: seq<Member>, key: string, i: int)
  {
    0 <= i < |members| && members[i].key == key && forall j :: i < j < |members| ==> members[j].key != key
  }

  /**
   * The value of `key` in an object parsed from JSON text. When a key is
   * written twice the later member wins, as in `JSON.parse`.
   */
  function LastValue(members: seq<Member>, key: string): JsValue
  {
    if |members| == 0 then Undefined
    else if members[|members| - 1].key == key then Defined(members[|members| - 1].value)
    else LastValue(members[..|members| - 1], key)
  }

  /** The lookup finds a member exactly when one has the key, and then it is the last such member. */
  lemma {:induction false} LastValueFindsLast(members: seq<Member>, key: string)
    ensures LastValue(members, key).Defined? <==> exists i :: 0 <= i < |members| && members[i].key == key
    ensures LastValue(members, key).Defined? ==>
      exists i :: IsLastWith(members, key, i) && members[i].value == LastValue(members, key).json
  {
    if |members| > 0 {
      var last := |members| - 1;
      if members[last].key == key {
        assert IsLastWith(members, key, last);
      } else {
        var init := members[..last];
        LastValueFindsLast(init, key);
        assert forall i :: 0 <= i < last ==> init[i] == members[i];
        if LastValue(init, key).Defined? {
          var i :| IsLastWith(init, key, i) && init[i].value == LastValue(init, key).json;
          assert IsLastWith(members, key, i);
        }
      }
    }
  }

  /**
   * `base.key` on a parsed JSON value. Only `null` throws; numbers, strings,
   * booleans and arrays have none of the keys this system reads, so they
   * give `undefined`.
   */
  function Get(base: Json, key: string): Access
  {
    match base
    case JNull => ReadOfNull
    case JObject(members) => Read(LastValue(members, key))
    case _ => Read(Undefined)
  }

  /** Whether `if (v)` takes its branch: false for `undefined`, `null`, `false`, `0` and `""`. */
  predicate Truthy(v: JsValue)
  {
    match v
    case Undefined => false
    case Defined(JNull) => false
    case Defined(JBool(b)) => b
    case Defined(JNumber(n)) => n != 0
    case Defined(JString(s)) => |s| > 0
    case Defined(JArray(_)) => true
    case Defined(JObject(_)) => true
  }

  // ------------------------------------------------------------------ ToString

  /**
   * Whether converting a parsed value to a primitive succeeds. An object
   * converts through `Object.prototype.toString` unless it has its own
   * `toString` member, which JSON can only make a non-callable value, so
   * the conversion finds nothing to call and throws a TypeError (its
   * `valueOf` yields the object itself and never helps). An array converts
   * through `join`, which converts every element.
   */
  predicate Convertible(j: Json)
    decreases j
  {
    match j
    case JObject(members) => LastValue(members, "toString").Undefined?
    case JArray(items) => forall i :: 0 <= i < |items| ==> Convertible(items[i])
    case _ => true
  }

  /** `String(v)`, which is also what `${v}` in a template literal produces; `None` is the TypeError. */
  function ToText(v: JsValue): (r: Option<string>)
    ensures r.Some? <==> v.Undefined? || Convertible(v.json)
    ensures v.Defined? && v.json.JString? ==> r == Some(v.json.s)
  {
    match v
    case Undefined => Some("undefined")
    case Defined(j) => JsonText(j)
  }

  function JsonText(j: Json): (r: Option<string>)
    ensures r.Some? <==> Convertible(j)
    decreases j
  {
    match j
    case JNull => Some("null")
    case JBool(b) => Some(if b then "true" else "false")
    case JNumber(n) => Some(IntText(n))
    case JString(s) => Some(s)
    case JArray(items) => Join(items)
    case JObject(members) => if LastValue(members, "toString").Defined? then None else Some("[object Object]")
  }

  /** `Array.prototype.join(",")`: a `null` element contributes the empty text; any other is converted. */
  function Join(items: seq<Json>): (r: Option<string>)
    ensures r.Some? <==> forall i :: 0 <= i < |items| ==> Convertible(items[i])
    decreases items
  {
    if |items| == 0 then Some("")
    else
      var first := if items[0] == JNull then Some("") else JsonText(items[0]);
      var rest := if |items| == 1 then Some("") else Join(items[1..]);
      assert forall i :: 1 <= i < |items| ==> items[i] == items[1..][i - 1];
      match (first, rest)
      case (Some(f), Some(t)) => Some(if |items| == 1 then f else f + "," + t)
      case _ => None
  }

  // ------------------------------------------------------------------ ToNumber

  /** A JavaScript number, without IEEE-754 rounding: finite values are exact. */
  datatype Number = NaN | Finite(value: real) | Infinity(negative: bool)

  /**
   * `Number(v)`, as `>` and `*` apply it: objects and arrays go through
   * their text, as `ToPrimitive` does, and `None` is the TypeError of an
   * object that cannot be converted.
   */
  function ToNumber(v: JsValue): (r: Option<Number>)
    ensures r.None? <==> v.Defined? && !Convertible(v.json)
    ensures v.Defined? && v.json.JNumber? ==> r == Some(Finite(v.json.n as real))
  {
    match v
    case Undefined => Some(NaN)
    case Defined(JNull) => Some(Finite(0.0))
    case Defined(JBool(b)) => Some(Finite(if b then 1.0 else 0.0))
    case Defined(JNumber(n)) => Some(Finite(n as real))
    case Defined(JString(s)) => Some(StringToNumber(s))
    case Defined(_) =>
      match ToText(v)
      case None => None
      case Some(t) => Some(StringToNumber(t))
  }

  /** `x > now` for a number `x` and a number `now`: false when `x` is NaN. */
  predicate Above(x: Number, now: int)
  {
    match x
    case NaN => false
    case Finite(r) => r > now as real
    case Infinity(negative) => !negative
  }

  /** `x > now` for a value that converts without throwing. */
  predicate GreaterThan(x: JsValue, now: int)
  {
    ToNumber(x).Some? && Above(ToNumber(x).value, now)
  }

  /**
   * `x * y` on numbers, exactly: NaN absorbs, an infinity times zero is NaN,
   * otherwise an infinity keeps the product's sign. Rounding, overflow to
   * infinity and the sign of zero are not modelled.
   */
  function Multiply(x: Number, y: Number): (p: Number)
    ensures p == NaN <==> x == NaN || y == NaN || (x.Infinity? && y == Finite(0.0)) || (y.Infinity? && x == Finite(0.0))
    ensures x.Finite? && y.Finite? ==> p == Finite(x.value * y.value)
  {
    if x == NaN || y == NaN then NaN
    else if x.Finite? && y.Finite? then Finite(x.value * y.value)
    else if x == Finite(0.0) || y == Finite(0.0) then NaN
    else Infinity(Negative(x) != Negative(y))
  }

  /** The sign of a number that is not NaN. */
  predicate Negative(x: Number)
  {
    match x
    case NaN => false
    case Finite(r) => r < 0.0
    case Infinity(negative) => negative
  }

  /** `x * 100`, the conversion from a major to a minor currency unit. */
  function Times100(x: Number): Number
  {
    Multiply(x, Finite(100.0))
  }

  /** White space and line terminators that `Number(text)` trims from both ends. */
  predicate IsJsSpace(c: char)
  {
    c == '\t' || c == '\n' || c == '\U{B}' || c == '\U{C}' || c == '\r' || c == ' ' ||
    c == '\U{A0}' || c == '\U{1680}' || ('\U{2000}' <= c <= '\U{200A}') ||
    c == '\U{2028}' || c == '\U{2029}' || c == '\U{202F}' || c == '\U{205F}' ||
    c == '\U{3000}' || c == '\U{FEFF}'
  }

  function Trim(s: string): (t: string)
    ensures |t| <= |s|
    ensures |t| > 0 ==> !IsJsSpace(t[0]) && !IsJsSpace(t[|t| - 1])
    ensures (|s| == 0 || (!IsJsSpace(s[0]) && !IsJsSpace(s[|s| - 1]))) ==> t == s
  {
    if |s| > 0 && IsJsSpace(s[0]) then Trim(s[1..])
    else if |s| > 0 && IsJsSpace(s[|s| - 1]) then Trim(s[..|s| - 1])
    else s
  }

  function Pow10Nat(k: nat): (p: nat)
    ensures p > 0
  {
    if k == 0 then 1 else 10 * Pow10Nat(k - 1)
  }

  function Pow10(e: int): real
  {
    if e >= 0 then Pow10Nat(e) as real else 1.0 / (Pow10Nat(-e) as real)
  }

  /** An exponent: an optional sign and at least one digit, up to the end. */
  function SignedDigits(s: string): Option<int>
  {
    var neg := |s| > 0 && s[0] == '-';
    var t := if |s| > 0 && (s[0] == '-' || s[0] == '+') then s[1..] else s;
    if |t| == 0 || !AllDigits(t) then None
    else
      var n: int := DigitsValue(t);
      Some(if neg then -n else n)
  }

  /** The pieces of a decimal literal: digits before the point, digits after it, the exponent. */
  datatype DecimalParts = DecimalParts(whole: string, fraction: string, exponent: int)

  /**
   * Splits the unsigned decimal literal of `Number(text)`: digits, an
   * optional point with optional digits (at least one digit overall), an
   * optional exponent, and nothing after it.
   */
  function SplitDecimal(u: string): (r: Option<DecimalParts>)
    ensures r.Some? ==> AllDigits(r.value.whole) && AllDigits(r.value.fraction)
  {
    var k1 := DigitRun(u);
    var r1 := u[k1..];
    var hasPoint := |r1| > 0 && r1[0] == '.';
    var r2 := if hasPoint then r1[1..] else r1;
    var k2 := if hasPoint then DigitRun(r2) else 0;
    var r3 := r2[k2..];
    assert AllDigits(r2[..k2]);
    if k1 + k2 == 0 then None
    else if |r3| == 0 then Some(DecimalParts(u[..k1], r2[..k2], 0))
    else if r3[0] == 'e' || r3[0] == 'E' then
      match SignedDigits(r3[1..])
      case None => None
      case Some(e) => Some(DecimalParts(u[..k1], r2[..k2], e))
    else None
  }

  /** The exact value `whole.fraction × 10^exponent`. */
  function PartsValue(p: DecimalParts): real
    requires AllDigits(p.whole) && AllDigits(p.fraction)
  {
    (DigitsValue(p.whole) as real + DigitsValue(p.fraction) as real / Pow10Nat(|p.fraction|) as real) * Pow10(p.exponent)
  }

  function UnsignedDecimal(u: string): Option<real>
  {
    match SplitDecimal(u)
    case None => None
    case Some(p) => Some(PartsValue(p))
  }

  function DigitIn(c: char, radix: nat): Option<nat>
  {
    match HexValue(c)
    case Some(d) => if d < radix then Some(d) else None
    case None => None
  }

  /** The value of `0x…`, `0o…` or `0b…` digits, read left to right. */
  function RadixValue(ds: string, radix: nat, acc: nat): Option<nat>
    decreases |ds|
  {
    if |ds| == 0 then Some(acc)
    else
      match DigitIn(ds[0], radix)
      case None => None
      case Some(d) => RadixValue(ds[1..], radix, acc * radix + d)
  }

  /**
   * `Number(text)` for a string: blank text is 0; `0x`, `0o` and `0b`
   * prefixes select another radix (no sign allowed); otherwise an optional
   * sign before `Infinity` or a decimal literal; anything else is NaN.
   */
  function StringToNumber(s: string): Number
  {
    var t := Trim(s);
    if |t| == 0 then Finite(0.0)
    else if |t| > 2 && t[0] == '0' && (t[1] == 'x' || t[1] == 'X') then NonDecimal(t[2..], 16)
    else if |t| > 2 && t[0] == '0' && (t[1] == 'o' || t[1] == 'O') then NonDecimal(t[2..], 8)
    else if |t| > 2 && t[0] == '0' && (t[1] == 'b' || t[1] == 'B') then NonDecimal(t[2..], 2)
    else
      var negative := t[0] == '-';
      var u := if t[0] == '-' || t[0] == '+' then t[1..] else t;
      if u == "Infinity" then Infinity(negative)
      else
        match UnsignedDecimal(u)
        case None => NaN
        case Some(r) => Finite(if negative then -r else r)
  }

  function NonDecimal(ds: string, radix: nat): Number
  {
    match RadixValue(ds, radix, 0)
    case None => NaN
    case Some(n) => Finite(n as real)
  }

  // ------------------------------------------------------------------ lemmas

  /** Looking a key up in a two-member object: the second member wins a tie. */
  lemma LookupInPair(a: Member, b: Member, key: string)
    ensures LastValue([a, b], key) ==
      if b.key == key then Defined(b.value) else if a.key == key then Defined(a.value) else Undefined
  {
    assert [a, b][..1] == [a];
    LookupInSingle(a, key);
  }

  lemma LookupInSingle(a: Member, key: string)
    ensures LastValue([a], key) == if a.key == key then Defined(a.value) else Undefined
  {
    assert [a][..0] == [];
    assert LastValue([], key) == Undefined;
  }

  /** `n > now` on a JSON number is the comparison of the two integers. */
  lemma NumberComparison(n: int, now: int)
    ensures GreaterThan(Defined(JNumber(n)), now) <==> n > now
  {
  }

  /** `"n" > now` compares the converted number: the text of an integer behaves as the integer. */
  lemma TextComparison(n: int, now: int)
    ensures GreaterThan(Defined(JString(IntText(n))), now) <==> n > now
  {
    StringToNumberIntText(n);
  }

  /** `Number(String(n))` is `n`: the text of an integer converts back to it. */
  lemma StringToNumberIntText(n: int)
    ensures StringToNumber(IntText(n)) == Finite(n as real)
  {
    if n >= 0 {
      assert IntText(n) == NatText(n);
      NatTextToNumber(n);
    } else {
      NegativeTextToNumber(n);
    }
  }

  lemma NatTextToNumber(m: nat)
    ensures StringToNumber(NatText(m)) == Finite(m as real)
  {
    var u := NatText(m);
    assert !IsJsSpace(u[0]) && !IsJsSpace(u[|u| - 1]);
    assert Trim(u) == u;
    assert u[0] != '-' && u[0] != '+';
    assert u != "Infinity" by { assert IsDigit(u[0]); }
    DecimalOfDigits(u);
    JsonRoundTrip.DigitsValueNatText(m);
  }

  lemma NegativeTextToNumber(n: int)
    requires n < 0
    ensures StringToNumber(IntText(n)) == Finite(n as real)
  {
    var u := NatText(-n);
    var t := IntText(n);
    NegativeTextShape(n);
    DecimalOfDigits(u);
    JsonRoundTrip.DigitsValueNatText(-n);
    NegativeDecimal(t, (-n) as real);
  }

  /** The text of a negative integer: a minus sign, then digits, with nothing to trim. */
  lemma NegativeTextShape(n: int)
    requires n < 0
    ensures var t := IntText(n);
      |t| > 1 && t[0] == '-' && t[1..] == NatText(-n) && Trim(t) == t && t[1..] != "Infinity"
  {
    var u := NatText(-n);
    var t := IntText(n);
    assert t == "-" + u;
    assert t[1..] == u && t[|t| - 1] == u[|u| - 1];
    assert Trim(t) == t;
    assert u != "Infinity" by { assert IsDigit(u[0]); }
  }

  /** A minus sign in front of a decimal literal negates its value. */
  lemma NegativeDecimal(t: string, r: real)
    requires |t| > 1 && t[0] == '-' && Trim(t) == t
    requires t[1..] != "Infinity" && UnsignedDecimal(t[1..]) == Some(r)
    ensures StringToNumber(t) == Finite(-r)
  {
  }

  lemma WholeNumberValue(u: string)
    requires AllDigits(u)
    ensures PartsValue(DecimalParts(u, "", 0)) == DigitsValue(u) as real
  {
    var w := DigitsValue(u) as real;
    assert DigitsValue("") == 0 && Pow10Nat(0) == 1;
    assert 0 as real / 1 as real == 0.0;
    assert Pow10(0) == 1.0;
    assert (w + 0.0) * 1.0 == w;
  }

  /** A run of digits alone is a decimal literal whose value is the digits' value. */
  lemma DecimalOfDigits(u: string)
    requires |u| > 0 && AllDigits(u)
    ensures UnsignedDecimal(u) == Some(DigitsValue(u) as real)
  {
    JsonRoundTrip.DigitRunStops(u, "");
    assert u + "" == u;
    assert u[..|u|] == u;
    assert SplitDecimal(u) == Some(DecimalParts(u, "", 0));
    WholeNumberValue(u);
  }

  /** Digits, a point and more digits: the whole part plus the fraction. */
  lemma FractionDecimal(w: string, f: string)
    requires |w| > 0 && AllDigits(w) && AllDigits(f)
    ensures UnsignedDecimal(w + "." + f) ==
      Some(DigitsValue(w) as real + DigitsValue(f) as real / Pow10Nat(|f|) as real)
  {
    var p := DecimalParts(w, f, 0);
    var u := w + "." + f;
    FractionSplit(w, f);
    SomeParts(u, p);
    WithoutExponent(p);
    var x := DigitsValue(w) as real + DigitsValue(f) as real / Pow10Nat(|f|) as real;
    assert UnsignedDecimal(u) == Some(PartsValue(p));
    assert PartsValue(p) == x;
  }

  lemma SomeParts(u: string, p: DecimalParts)
    requires SplitDecimal(u) == Some(p)
    ensures UnsignedDecimal(u) == Some(PartsValue(p))
  {
  }

  /** With a zero exponent the value is the whole part plus the fraction. */
  lemma WithoutExponent(p: DecimalParts)
    requires AllDigits(p.whole) && AllDigits(p.fraction) && p.exponent == 0
    ensures PartsValue(p) == DigitsValue(p.whole) as real + DigitsValue(p.fraction) as real / Pow10Nat(|p.fraction|) as real
  {
    var x := DigitsValue(p.whole) as real + DigitsValue(p.fraction) as real / Pow10Nat(|p.fraction|) as real;
    assert Pow10(0) == 1.0;
    assert PartsValue(p) == x * 1.0;
  }

  lemma FractionSplit(w: string, f: string)
    requires |w| > 0 && AllDigits(w) && AllDigits(f)
    ensures SplitDecimal(w + "." + f) == Some(DecimalParts(w, f, 0))
  {
    var u := w + "." + f;
    assert u == w + ("." + f);
    JsonRoundTrip.DigitRunStops(w, "." + f);
    assert f + "" == f;
    JsonRoundTrip.DigitRunStops(f, "");
    assert u[|w|..] == "." + f && ("." + f)[1..] == f && u[..|w|] == w && f[..|f|] == f && f[|f|..] == "";
  }

  /** Text that starts with a non-zero digit and ends in no space converts as a decimal literal. */
  lemma DecimalText(t: string, r: real)
    requires |t| > 0 && IsDigit(t[0]) && t[0] != '0' && !IsJsSpace(t[|t| - 1])
    requires UnsignedDecimal(t) == Some(r)
    ensures StringToNumber(t) == Finite(r)
  {
    assert Trim(t) == t;
    assert t != "Infinity";
  }
}

=== FILE: json.dfy ===
/**
 * JSON text (RFC 8259) as `JSON.stringify` writes it and `JSON.parse` reads
 * it. Numbers are whole numbers: a number with a fraction or an exponent part
 * is not part of this model and is refused by `Parse`.
 */
module Json {
  import opened Maybe

  datatype Json =
    | JNull
    | JBool(b: bool)
    | JNumber(n: int)
    | JString(s: string)
    | JArray(items: seq<Json>)
    | JObject(members: seq<Member>)

  /** One `"key": value` pair; members keep the order in which they were written. */
  datatype Member = Member(key: string, value: Json)

  // ---------------------------------------------------------------- lexical

  predicate IsDigit(c: char) { '0' <= c <= '9' }

  /** The four insignificant whitespace characters of section 2 of RFC 8259. */
  predicate IsWhitespace(c: char) { c == ' ' || c == '\t' || c == '\n' || c == '\r' }

  function DigitChar(d: int): (c: char)
    requires 0 <= d < 10
    ensures IsDigit(c)
  {
    ('0' as int + d) as char
  }

  function DigitValue(c: char): int
    requires IsDigit(c)
  {
    c as int - '0' as int
  }

  predicate AllDigits(s: string) { forall i :: 0 <= i < |s| ==> IsDigit(s[i]) }

  /** Decimal digits of a natural number, without leading zeros. */
  function NatText(n: nat): (t: string)
    ensures |t| > 0 && AllDigits(t)
    ensures t[0] == '0' <==> n == 0
    decreases n
  {
    if n < 10 then [DigitChar(n)] else NatText(n / 10) + [DigitChar(n % 10)]
  }

  function IntText(n: int): string
  {
    if n < 0 then "-" + NatText(-n) else NatText(n)
  }

  /** The number a run of decimal digits denotes. */
  function DigitsValue(ds: string): nat
    requires AllDigits(ds)
  {
    if |ds| == 0 then 0 else DigitsValue(ds[..|ds| - 1]) * 10 + DigitValue(ds[|ds| - 1])
  }

  /** Length of the run of digits at the front of `s`. */
  function DigitRun(s: string): (k: nat)
    ensures k <= |s| && AllDigits(s[..k])
    ensures k < |s| ==> !IsDigit(s[k])
  {
    if |s| == 0 || !IsDigit(s[0]) then 0
    else
      var k := 1 + DigitRun(s[1..]);
      assert s[..k] == [s[0]] + s[1..][..k - 1];
      k
  }

  function HexChar(d: int): (c: char)
    requires 0 <= d < 16
  {
    if d < 10 then DigitChar(d) else ('a' as int + (d - 10)) as char
  }

  function HexValue(c: char): Option<int>
  {
    if IsDigit(c) then Some(DigitValue(c))
    else if 'a' <= c <= 'f' then Some(c as int - 'a' as int + 10)
    else if 'A' <= c <= 'F' then Some(c as int - 'A' as int + 10)
    else None
  }

  /** The code unit written as four hex digits after `\u`. */
  function Hex4(s: string): (r: Option<int>)
    requires |s| >= 4
    ensures r.Some? ==> 0 <= r.value < 0x1_0000
  {
    match (HexValue(s[0]), HexValue(s[1]), HexValue(s[2]), HexValue(s[3]))
    case (Some(h0), Some(h1), Some(h2), Some(h3)) =>
      assert 0 <= h0 < 16 && 0 <= h1 < 16 && 0 <= h2 < 16 && 0 <= h3 < 16;
      Some(((h0 * 16 + h1) * 16 + h2) * 16 + h3)
    case _ => None
  }

  // ------------------------------------------------------------ serializer

  /**
   * How `JSON.stringify` writes one character inside a string: `"` and `\`
   * are escaped, the five control characters with a short escape use it, the
   * other control characters become `\u00xx`, everything else is itself.
   */
  function EscapeChar(c: char): string
  {
    if c == '"' then "\\\""
    else if c == '\\' then "\\\\"
    else if c == '\U{8}' then "\\b"
    else if c == '\U{C}' then "\\f"
    else if c == '\n' then "\\n"
    else if c == '\r' then "\\r"
    else if c == '\t' then "\\t"
    else if (c as int) < 0x20 then "\\u00" + [HexChar(c as int / 16), HexChar(c as int % 16)]
    else [c]
  }

  function Escape(s: string): string
  {
    if |s| == 0 then "" else EscapeChar(s[0]) + Escape(s[1..])
  }

  function Quote(s: string): string
  {
    "\"" + Escape(s) + "\""
  }

  /** `JSON.stringify(v)`: the compact form, without any whitespace. */
  function Stringify(v: Json): string
    decreases v
  {
    match v
    case JNull => "null"
    case JBool(b) => if b then "true" else "false"
    case JNumber(n) => IntText(n)
    case JString(s) => Quote(s)
    case JArray(items) => "[" + Items(items) + "]"
    case JObject(members) => "{" + Members(members) + "}"
  }

  /** Array elements separated by commas. */
  function Items(items: seq<Json>): string
    decreases items
  {
    if |items| == 0 then ""
    else if |items| == 1 then Stringify(items[0])
    else Stringify(items[0]) + "," + Items(items[1..])
  }

  /** Object members, `"key":value`, separated by commas. */
  function Members(members: seq<Member>): string
    decreases members
  {
    if |members| == 0 then ""
    else if |members| == 1 then MemberText(members[0])
    else MemberText(members[0]) + "," + Members(members[1..])
  }

  function MemberText(m: Member): string
    decreases m
  {
    Quote(m.key) + ":" + Stringify(m.value)
  }

  // ---------------------------------------------------------------- parser
  // Each parser takes the unread text and returns what it read together with
  // the text left over after it.

  function SkipWhitespace(s: string): (r: string)
    ensures |r| <= |s|
    ensures |r| > 0 ==> !IsWhitespace(r[0])
    ensures |s| > 0 && !IsWhitespace(s[0]) ==> r == s
  {
    if |s| > 0 && IsWhitespace(s[0]) then SkipWhitespace(s[1..]) else s
  }

  /** Reads `-? (0 | [1-9][0-9]*)`. */
  function ParseNumber(s: string): (r: Option<(int, string)>)
    ensures r.Some? ==> |r.value.1| < |s|
  {
    var neg := |s| > 0 && s[0] == '-';
    var t := if neg then s[1..] else s;
    if |t| == 0 || !IsDigit(t[0]) then None
    else
      var k := if t[0] == '0' then 1 else DigitRun(t);
      assert AllDigits(t[..k]);
      var n: int := DigitsValue(t[..k]);
      Some((if neg then -n else n, t[k..]))
  }

  /**
   * Reads the escape after a backslash. A `\u` escape of a high surrogate must
   * be followed by a `\u` escape of a low surrogate, and the pair stands for
   * one character; a lone surrogate is refused.
   */
  function ParseEscape(s: string): (r: Option<(char, string)>)
    ensures r.Some? ==> |r.value.1| < |s|
  {
    if |s| == 0 then None
    else if s[0] == '"' then Some(('"', s[1..]))
    else if s[0] == '\\' then Some(('\\', s[1..]))
    else if s[0] == '/' then Some(('/', s[1..]))
    else if s[0] == 'b' then Some(('\U{8}', s[1..]))
    else if s[0] == 'f' then Some(('\U{C}', s[1..]))
    else if s[0] == 'n' then Some(('\n', s[1..]))
    else if s[0] == 'r' then Some(('\r', s[1..]))
    else if s[0] == 't' then Some(('\t', s[1..]))
    else if s[0] == 'u' && |s| >= 5 then
      match Hex4(s[1..5])
      case None => None
      case Some(u) =>
        if u < 0xD800 || 0xE000 <= u then Some((u as char, s[5..]))
        else if 0xDC00 <= u || |s| < 11 || s[5] != '\\' || s[6] != 'u' then None
        else
          match Hex4(s[7..11])
          case None => None
          case Some(lo) =>
            if lo < 0xDC00 || 0xE000 <= lo then None
            else Some(((0x1_0000 + (u - 0xD800) * 0x400 + (lo - 0xDC00)) as char, s[11..]))
    else None
  }

  /** Reads the characters of a string up to and including its closing quote. */
  function ParseChars(s: string): (r: Option<(string, string)>)
    ensures r.Some? ==> |r.value.1| < |s|
    decreases |s|
  {
    if |s| == 0 then None
    else if s[0] == '"' then Some(("", s[1..]))
    else if s[0] == '\\' then
      match ParseEscape(s[1..])
      case None => None
      case Some((c, rest)) => Prepend(c, ParseChars(rest))
    else if (s[0] as int) < 0x20 then None
    else Prepend(s[0], ParseChars(s[1..]))
  }

  function Prepend(c: char, r: Option<(string, string)>): Option<(string, string)>
  {
    match r
    case None => None
    case Some((t, rest)) => Some(([c] + t, rest))
  }

  /** Reads one value with the whitespace around it. */
  function ParseValue(s: string): (r: Option<(Json, string)>)
    ensures r.Some? ==> |r.value.1| < |s|
    decreases |s|, 1
  {
    var t := SkipWhitespace(s);
    match ParseBare(t)
    case None => None
    case Some((v, rest)) => Some((v, SkipWhitespace(rest)))
  }

  /** Reads one value that starts right at the front of `s`. */
  function ParseBare(s: string): (r: Option<(Json, string)>)
    ensures r.Some? ==> |r.value.1| < |s|
    decreases |s|, 0
  {
    if |s| == 0 then None
    else if s[0] == 'n' then (if s[..Min(4, |s|)] == "null" then Some((JNull, s[4..])) else None)
    else if s[0] == 't' then (if s[..Min(4, |s|)] == "true" then Some((JBool(true), s[4..])) else None)
    else if s[0] == 'f' then (if s[..Min(5, |s|)] == "false" then Some((JBool(false), s[5..])) else None)
    else if s[0] == '"' then
      (match ParseChars(s[1..])
       case None => None
       case Some((str, rest)) => Some((JString(str), rest)))
    else if s[0] == '[' then
      (match ParseArrayBody(s[1..])
       case None => None
       case Some((items, rest)) => Some((JArray(items), rest)))
    else if s[0] == '{' then
      (match ParseObjectBody(s[1..])
       case None => None
       case Some((members, rest)) => Some((JObject(members), rest)))
    else
      match ParseNumber(s)
      case None => None
      case Some((n, rest)) => Some((JNumber(n), rest))
  }

  function Min(a: int, b: int): int { if a < b then a else b }

  /** Reads the elements of an array and its closing bracket. */
  function ParseArrayBody(s: string): (r: Option<(seq<Json>, string)>)
    ensures r.Some? ==> |r.value.1| < |s|
    decreases |s|, 3
  {
    var t := SkipWhitespace(s);
    if |t| > 0 && t[0] == ']' then Some(([], t[1..])) else ParseElements(s)
  }

  function ParseElements(s: string): (r: Option<(seq<Json>, string)>)
    ensures r.Some? ==> |r.value.1| < |s|
    decreases |s|, 2
  {
    match ParseValue(s)
    case None => None
    case Some((v, rest)) =>
      if |rest| > 0 && rest[0] == ',' then
        match ParseElements(rest[1..])
        case None => None
        case Some((vs, rest')) => Some(([v] + vs, rest'))
      else if |rest| > 0 && rest[0] == ']' then Some(([v], rest[1..]))
      else None
  }

  /** Reads the members of an object and its closing brace. */
  function ParseObjectBody(s: string): (r: Option<(seq<Member>, string)>)
    ensures r.Some? ==> |r.value.1| < |s|
    decreases |s|, 3
  {
    var t := SkipWhitespace(s);
    if |t| > 0 && t[0] == '}' then Some(([], t[1..])) else ParseMembers(s)
  }

  function ParseMembers(s: string): (r: Option<(seq<Member>, string)>)
    ensures r.Some? ==> |r.value.1| < |s|
    decreases |s|, 2
  {
    match ParseMember(s)
    case None => None
    case Some((m, rest)) =>
      if |rest| > 0 && rest[0] == ',' then
        match ParseMembers(rest[1..])
        case None => None
        case Some((ms, rest')) => Some(([m] + ms, rest'))
      else if |rest| > 0 && rest[0] == '}' then Some(([m], rest[1..]))
      else None
  }

  function ParseMember(s: string): (r: Option<(Member, string)>)
    ensures r.Some? ==> |r.value.1| < |s|
    decreases |s|, 1
  {
    var t := SkipWhitespace(s);
    if |t| == 0 || t[0] != '"' then None
    else
      match ParseChars(t[1..])
      case None => None
      case Some((key, rest)) =>
        var u := SkipWhitespace(rest);
        if |u| == 0 || u[0] != ':' then None
        else
          match ParseValue(u[1..])
          case None => None
          case Some((v, rest')) => Some((Member(key, v), rest'))
  }

  /** `JSON.parse(text)`: one value, optionally surrounded by whitespace, and nothing else. */
  function Parse(text: string): Option<Json>
  {
    match ParseValue(text)
    case Some((v, rest)) => if |rest| == 0 then Some(v) else None
    case None => None
  }
}

=== FILE: json_roundtrip.dfy ===
/**
 * `JSON.parse(JSON.stringify(v))` gives back `v`, for every value of the JSON
 * model. The proof follows the serializer: digits, escapes, strings, then
 * values, arrays and objects together.
 */
module JsonRoundTrip {
  import opened Maybe
  import opened Json

  // ----------------------------------------------------------------- numbers

  lemma {:induction false} DigitsValueNatText(n: nat)
    ensures DigitsValue(NatText(n)) == n
    decreases n
  {
    if n >= 10 {
      var t := NatText(n / 10) + [DigitChar(n % 10)];
      assert t[..|t| - 1] == NatText(n / 10);
      DigitsValueNatText(n / 10);
    }
  }

  /** A run of digits stops exactly where the digits do. */
  lemma {:induction false} DigitRunStops(ds: string, rest: string)
    requires AllDigits(ds)
    requires |rest| == 0 || !IsDigit(rest[0])
    ensures DigitRun(ds + rest) == |ds|
    decreases |ds|
  {
    if |ds| > 0 {
      assert (ds + rest)[1..] == ds[1..] + rest;
      DigitRunStops(ds[1..], rest);
    } else {
      assert ds + rest == rest;
    }
  }

  lemma NumberRoundTrip(n: int, rest: string)
    requires |rest| == 0 || !IsDigit(rest[0])
    ensures ParseNumber(IntText(n) + rest) == Some((n, rest))
  {
    if n == 0 {
      ZeroRoundTrip(rest);
    } else if n > 0 {
      PositiveRoundTrip(n, rest);
    } else {
      PositiveRoundTrip(-n, rest);
      assert IntText(n) == "-" + NatText(-n);
      Assoc("-", NatText(-n), rest);
      NegativeStep(NatText(-n) + rest, -n, rest);
    }
  }

  lemma ZeroRoundTrip(rest: string)
    requires |rest| == 0 || !IsDigit(rest[0])
    ensures ParseNumber("0" + rest) == Some((0, rest))
  {
    var t := "0" + rest;
    assert t[0] == '0' && t[..1] == "0" && t[1..] == rest;
    assert DigitsValue("0") == 0;
  }

  lemma PositiveRoundTrip(m: nat, rest: string)
    requires m > 0
    requires |rest| == 0 || !IsDigit(rest[0])
    ensures IsDigit((NatText(m) + rest)[0])
    ensures ParseNumber(NatText(m) + rest) == Some((m, rest))
  {
    var d := NatText(m);
    var t := d + rest;
    assert t[0] == d[0] && t[0] != '-' && t[0] != '0';
    DigitRunStops(d, rest);
    assert t[..|d|] == d && t[|d|..] == rest;
    DigitsValueNatText(m);
  }

  /** A minus sign in front of an unsigned number negates it. */
  lemma NegativeStep(t: string, n: int, rest: string)
    requires |t| > 0 && IsDigit(t[0])
    requires ParseNumber(t) == Some((n, rest))
    ensures ParseNumber("-" + t) == Some((-n, rest))
  {
    assert ("-" + t)[1..] == t;
  }

  // ----------------------------------------------------------------- strings

  lemma HexRoundTrip(d: int)
    requires 0 <= d < 16
    ensures HexValue(HexChar(d)) == Some(d)
  {
  }

  /** The escape written for one character reads back as that character. */
  lemma EscapeCharRoundTrip(c: char, t: string)
    ensures ParseChars(EscapeChar(c) + t) == Prepend(c, ParseChars(t))
  {
    if c == '"' || c == '\\' || c == '\U{8}' || c == '\U{C}' || c == '\n' || c == '\r' || c == '\t' {
      ShortEscapeRoundTrip(c, t);
    } else if (c as int) < 0x20 {
      UnicodeEscapeRoundTrip(c, t);
    } else {
      var s := EscapeChar(c) + t;
      assert s == [c] + t;
      assert s[1..] == t;
    }
  }

  /** A backslash, then an escape that reads as `c`, reads as `c`. */
  lemma EscapeStep(s: string, c: char, after: string)
    requires |s| > 0 && s[0] == '\\' && ParseEscape(s[1..]) == Some((c, after))
    ensures ParseChars(s) == Prepend(c, ParseChars(after))
  {
  }

  lemma ShortEscapeRoundTrip(c: char, t: string)
    requires c == '"' || c == '\\' || c == '\U{8}' || c == '\U{C}' || c == '\n' || c == '\r' || c == '\t'
    ensures ParseChars(EscapeChar(c) + t) == Prepend(c, ParseChars(t))
  {
    var e := EscapeChar(c);
    var s := e + t;
    assert |e| == 2 && e[0] == '\\';
    assert s[0] == '\\';
    assert s[1..] == [e[1]] + t;
    assert ParseEscape(s[1..]) == Some((c, t));
    EscapeStep(s, c, t);
  }

  lemma UnicodeEscapeRoundTrip(c: char, t: string)
    requires (c as int) < 0x20
    requires c != '\U{8}' && c != '\U{C}' && c != '\n' && c != '\r' && c != '\t'
    ensures ParseChars(EscapeChar(c) + t) == Prepend(c, ParseChars(t))
  {
    var h1, h2 := c as int / 16, c as int % 16;
    HexRoundTrip(h1);
    HexRoundTrip(h2);
    var s := EscapeChar(c) + t;
    assert s == "\\u00" + [HexChar(h1), HexChar(h2)] + t;
    var e := s[1..];
    assert e == "u00" + [HexChar(h1), HexChar(h2)] + t;
    assert e[1..5] == ['0', '0', HexChar(h1), HexChar(h2)];
    assert Hex4(e[1..5]) == Some(c as int);
    assert e[5..] == t;
    EscapeStep(s, c, t);
  }

  lemma {:induction false} StringRoundTrip(str: string, rest: string)
    ensures ParseChars(Escape(str) + "\"" + rest) == Some((str, rest))
    decreases |str|
  {
    if |str| == 0 {
      assert Escape(str) + "\"" + rest == "\"" + rest;
    } else {
      var t := Escape(str[1..]) + "\"" + rest;
      assert Escape(str) + "\"" + rest == EscapeChar(str[0]) + t;
      EscapeCharRoundTrip(str[0], t);
      StringRoundTrip(str[1..], rest);
      assert [str[0]] + str[1..] == str;
    }
  }

  // ------------------------------------------------------------------ values

  /** What may follow a value inside compact JSON text. */
  predicate Delimited(rest: string)
  {
    |rest| == 0 || rest[0] == ',' || rest[0] == ']' || rest[0] == '}'
  }

  /** Characters a serialized value can begin with. */
  predicate StartsValue(c: char)
  {
    c == 'n' || c == 't' || c == 'f' || c == '"' || c == '[' || c == '{' || c == '-' || IsDigit(c)
  }

  lemma IntTextStart(n: int)
    ensures |IntText(n)| > 0 && (IntText(n)[0] == '-' || IsDigit(IntText(n)[0]))
  {
    if n < 0 {
      assert IntText(n)[0] == '-';
    } else {
      assert IntText(n) == NatText(n);
    }
  }

  lemma StringifyStart(v: Json)
    ensures |Stringify(v)| > 0 && StartsValue(Stringify(v)[0])
  {
    if v.JNumber? {
      IntTextStart(v.n);
    }
  }

  // The steps below each unfold one parser function once, over text that is
  // described only by what its parts parse to.

  lemma ValueStep(s: string, v: Json, rest: string)
    requires |s| > 0 && StartsValue(s[0])
    requires ParseBare(s) == Some((v, rest)) && Delimited(rest)
    ensures ParseValue(s) == Some((v, rest))
  {
    assert SkipWhitespace(s) == s;
    assert SkipWhitespace(rest) == rest;
  }

  lemma BareStringStep(s: string, str: string, rest: string)
    requires |s| > 0 && s[0] == '"' && ParseChars(s[1..]) == Some((str, rest))
    ensures ParseBare(s) == Some((JString(str), rest))
  {
  }

  lemma BareNumberStep(s: string, n: int, rest: string)
    requires |s| > 0 && (s[0] == '-' || IsDigit(s[0])) && ParseNumber(s) == Some((n, rest))
    ensures ParseBare(s) == Some((JNumber(n), rest))
  {
    assert s[0] != 'n' && s[0] != 't' && s[0] != 'f' && s[0] != '"' && s[0] != '[' && s[0] != '{';
  }

  lemma BareArrayStep(s: string, items: seq<Json>, rest: string)
    requires |s| > 0 && s[0] == '[' && ParseArrayBody(s[1..]) == Some((items, rest))
    ensures ParseBare(s) == Some((JArray(items), rest))
  {
  }

  lemma BareObjectStep(s: string, members: seq<Member>, rest: string)
    requires |s| > 0 && s[0] == '{' && ParseObjectBody(s[1..]) == Some((members, rest))
    ensures ParseBare(s) == Some((JObject(members), rest))
  {
  }

  lemma ArrayBodyStep(s: string, items: seq<Json>, rest: string)
    requires |s| > 0 && StartsValue(s[0]) && ParseElements(s) == Some((items, rest))
    ensures ParseArrayBody(s) == Some((items, rest))
  {
  }

  lemma ObjectBodyStep(s: string, members: seq<Member>, rest: string)
    requires |s| > 0 && s[0] == '"' && ParseMembers(s) == Some((members, rest))
    ensures ParseObjectBody(s) == Some((members, rest))
  {
  }

  lemma ElementsLast(s: string, v: Json, rest: string)
    requires ParseValue(s) == Some((v, "]" + rest))
    ensures ParseElements(s) == Some(([v], rest))
  {
    assert ("]" + rest)[1..] == rest;
  }

  lemma ElementsStep(s: string, v: Json, tail: string, vs: seq<Json>, rest: string)
    requires ParseValue(s) == Some((v, "," + tail))
    requires ParseElements(tail) == Some((vs, rest))
    ensures ParseElements(s) == Some(([v] + vs, rest))
  {
    assert ("," + tail)[1..] == tail;
  }

  lemma MembersLast(s: string, m: Member, rest: string)
    requires ParseMember(s) == Some((m, "}" + rest))
    ensures ParseMembers(s) == Some(([m], rest))
  {
    assert ("}" + rest)[1..] == rest;
  }

  lemma MembersStep(s: string, m: Member, tail: string, ms: seq<Member>, rest: string)
    requires ParseMember(s) == Some((m, "," + tail))
    requires ParseMembers(tail) == Some((ms, rest))
    ensures ParseMembers(s) == Some(([m] + ms, rest))
  {
    assert ("," + tail)[1..] == tail;
  }

  lemma MemberStep(s: string, key: string, after: string, v: Json, rest: string)
    requires |s| > 0 && s[0] == '"' && ParseChars(s[1..]) == Some((key, after))
    requires |after| > 0 && after[0] == ':' && ParseValue(after[1..]) == Some((v, rest))
    ensures ParseMember(s) == Some((Member(key, v), rest))
  {
  }

  /** The front and the remainder of text that starts with one known character. */
  lemma Cons(c: string, t: string)
    requires |c| == 1
    ensures (c + t)[0] == c[0] && (c + t)[1..] == t
  {
  }

  lemma Assoc(a: string, b: string, c: string)
    ensures a + b + c == a + (b + c)
  {
  }

  lemma Wrap(open: string, middle: string, close: string, rest: string)
    ensures open + middle + close + rest == open + (middle + close + rest)
  {
  }

  lemma Regroup(a: string, b: string, c: string, d: string, e: string)
    ensures a + b + c + d + e == a + (b + (c + d + e))
  {
  }

  // ------------------------------------------------------------ round trips

  lemma {:induction false} ValueRoundTrip(v: Json, rest: string)
    requires Delimited(rest)
    ensures ParseValue(Stringify(v) + rest) == Some((v, rest))
    decreases v, 1
  {
    StringifyStart(v);
    var s := Stringify(v) + rest;
    assert s[0] == Stringify(v)[0];
    BareRoundTrip(v, rest);
    ValueStep(s, v, rest);
  }

  lemma {:induction false} BareRoundTrip(v: Json, rest: string)
    requires Delimited(rest)
    ensures ParseBare(Stringify(v) + rest) == Some((v, rest))
    decreases v, 0
  {
    var s := Stringify(v) + rest;
    match v
    case JNull =>
      LiteralRoundTrip(v, rest);
    case JBool(_) =>
      LiteralRoundTrip(v, rest);
    case JNumber(n) =>
      IntTextStart(n);
      assert s[0] == IntText(n)[0];
      NumberRoundTrip(n, rest);
      BareNumberStep(s, n, rest);
    case JString(str) =>
      Wrap("\"", Escape(str), "\"", rest);
      Cons("\"", Escape(str) + "\"" + rest);
      StringRoundTrip(str, rest);
      BareStringStep(s, str, rest);
    case JArray(items) =>
      ArrayRoundTrip(items, rest);
    case JObject(members) =>
      ObjectRoundTrip(members, rest);
  }

  lemma LiteralRoundTrip(v: Json, rest: string)
    requires v.JNull? || v.JBool?
    ensures ParseBare(Stringify(v) + rest) == Some((v, rest))
  {
    var s := Stringify(v) + rest;
    if v.JNull? {
      assert s[..4] == "null" && s[4..] == rest;
    } else if v.b {
      assert s[..4] == "true" && s[4..] == rest;
    } else {
      assert s[..5] == "false" && s[5..] == rest;
    }
  }

  lemma {:induction false} ArrayRoundTrip(items: seq<Json>, rest: string)
    requires Delimited(rest)
    ensures ParseBare(Stringify(JArray(items)) + rest) == Some((JArray(items), rest))
    decreases items, 1
  {
    var s := Stringify(JArray(items)) + rest;
    var body := Items(items) + "]" + rest;
    Wrap("[", Items(items), "]", rest);
    Cons("[", body);
    if |items| == 0 {
      assert body == "]" + rest;
      assert ParseArrayBody(body) == Some(([], rest));
    } else {
      ItemsStart(items);
      assert body[0] == Items(items)[0];
      ItemsRoundTrip(items, rest);
      ArrayBodyStep(body, items, rest);
    }
    BareArrayStep(s, items, rest);
  }

  lemma {:induction false} ObjectRoundTrip(members: seq<Member>, rest: string)
    requires Delimited(rest)
    ensures ParseBare(Stringify(JObject(members)) + rest) == Some((JObject(members), rest))
    decreases members, 1
  {
    var s := Stringify(JObject(members)) + rest;
    var body := Members(members) + "}" + rest;
    Wrap("{", Members(members), "}", rest);
    Cons("{", body);
    if |members| == 0 {
      assert body == "}" + rest;
      assert ParseObjectBody(body) == Some(([], rest));
    } else {
      MembersStart(members);
      assert body[0] == '"';
      MembersRoundTrip(members, rest);
      ObjectBodyStep(body, members, rest);
    }
    BareObjectStep(s, members, rest);
  }

  lemma ItemsStart(items: seq<Json>)
    requires |items| > 0
    ensures |Items(items)| > 0 && StartsValue(Items(items)[0])
  {
    StringifyStart(items[0]);
  }

  lemma MembersStart(members: seq<Member>)
    requires |members| > 0
    ensures |Members(members)| > 0 && Members(members)[0] == '"'
  {
  }

  lemma {:induction false} ItemsRoundTrip(items: seq<Json>, rest: string)
    requires |items| > 0
    requires Delimited(rest)
    ensures ParseElements(Items(items) + "]" + rest) == Some((items, rest))
    decreases items, 0
  {
    var x := items[0];
    var s := Items(items) + "]" + rest;
    if |items| == 1 {
      Assoc(Stringify(x), "]", rest);
      ValueRoundTrip(x, "]" + rest);
      ElementsLast(s, x, rest);
      assert items == [x];
    } else {
      var tail := Items(items[1..]) + "]" + rest;
      ItemsUnfold(items);
      Regroup(Stringify(x), ",", Items(items[1..]), "]", rest);
      ValueRoundTrip(x, "," + tail);
      ItemsRoundTrip(items[1..], rest);
      ElementsStep(s, x, tail, items[1..], rest);
      assert [x] + items[1..] == items;
    }
  }

  lemma {:induction false} MemberRoundTrip(m: Member, rest: string)
    requires Delimited(rest)
    ensures ParseMember(MemberText(m) + rest) == Some((m, rest))
    decreases m
  {
    var s := MemberText(m) + rest;
    var after := ":" + Stringify(m.value) + rest;
    MemberTextSplit(m, rest);
    Cons("\"", Escape(m.key) + "\"" + after);
    StringRoundTrip(m.key, after);
    Assoc(":", Stringify(m.value), rest);
    Cons(":", Stringify(m.value) + rest);
    ValueRoundTrip(m.value, rest);
    MemberStep(s, m.key, after, m.value, rest);
  }

  /** A member's text is its quoted key followed by what comes after the key. */
  lemma MemberTextSplit(m: Member, rest: string)
    ensures MemberText(m) + rest == "\"" + (Escape(m.key) + "\"" + (":" + Stringify(m.value) + rest))
  {
    var k, v := Escape(m.key), Stringify(m.value);
    assert MemberText(m) + rest == "\"" + k + "\"" + ":" + v + rest;
    Regroup("\"", k, "\"", ":" + v, rest);
  }

  lemma {:induction false} MembersRoundTrip(members: seq<Member>, rest: string)
    requires |members| > 0
    requires Delimited(rest)
    ensures ParseMembers(Members(members) + "}" + rest) == Some((members, rest))
    decreases members, 0
  {
    var m := members[0];
    var s := Members(members) + "}" + rest;
    if |members| == 1 {
      Assoc(MemberText(m), "}", rest);
      MemberRoundTrip(m, "}" + rest);
      MembersLast(s, m, rest);
      assert members == [m];
    } else {
      var tail := Members(members[1..]) + "}" + rest;
      MembersUnfold(members);
      Regroup(MemberText(m), ",", Members(members[1..]), "}", rest);
      MemberRoundTrip(m, "," + tail);
      MembersRoundTrip(members[1..], rest);
      MembersStep(s, m, tail, members[1..], rest);
      assert [m] + members[1..] == members;
    }
  }

  lemma ItemsUnfold(items: seq<Json>)
    requires |items| > 1
    ensures Items(items) == Stringify(items[0]) + "," + Items(items[1..])
  {
  }

  lemma MembersUnfold(members: seq<Member>)
    requires |members| > 1
    ensures Members(members) == MemberText(members[0]) + "," + Members(members[1..])
  {
  }

  /** `JSON.parse(JSON.stringify(v))` is `v`. */
  lemma ParseStringify(v: Json)
    ensures Parse(Stringify(v)) == Some(v)
  {
    ValueRoundTrip(v, "");
    assert Stringify(v) + "" == Stringify(v);
  }
}

=== FILE: lifecycle.dfy ===
/**
 * The session's whole life: a cookie issued by the login handler, presented
 * to the server hook on a later request.
 */
module SessionLifecycle {
  import opened Maybe
  import opened Json
  import opened Js
  import opened SessionToken
  import opened LoginSession
  import opened Hooks

  /**
   * A token issued at `t0` signs requests in as the `userId` it was issued
   * for exactly while `now < t0 + 432000000`, and from then on is expired.
   */
  lemma IssuedTokenAuthenticates(body: Option<Json>, t0: int, nodeEnv: Option<string>, now: int)
    requires Post(body, t0, nodeEnv).cookie.Some?
    ensures var token := Post(body, t0, nodeEnv).cookie.value.value;
      Classify(Some(token), now) ==
        if now < t0 + 432_000_000 then Authenticated(User(Get(body.value, "userId").value)) else Expired
  {
    var userId := Get(body.value, "userId").value;
    var session := Session(userId.json, t0 + ValidityMs);
    assert Post(body, t0, nodeEnv).cookie.value.value == Encode(session);
    SessionDecision(session, now);
  }

  /** The window in which the browser presents the issued cookie: from issue until its `Max-Age` runs out. */
  predicate CookieAlive(c: SetCookie, t0: int, now: int)
  {
    t0 <= now < t0 + CookieLifetimeMs(c)
  }

  /**
   * Because `maxAge` is given milliseconds, the browser keeps sending the
   * cookie long after the token in it has expired; on every such request the
   * hook signs nobody in and deletes the cookie again.
   */
  lemma StaleCookieIsDeleted<R>(body: Option<Json>, t0: int, nodeEnv: Option<string>, now: int, resolve: Option<User> -> R)
    requires Post(body, t0, nodeEnv).cookie.Some?
    requires t0 + ValidityMs <= now < t0 + 1000 * ValidityMs
    ensures var c := Post(body, t0, nodeEnv).cookie.value;
      CookieAlive(c, t0, now) &&
      Handle(Some(c.value), now, resolve) == Handled(None, Some(DeleteCookie("session", "/")), resolve(None))
  {
    CookieOutlivesToken(body, t0, nodeEnv);
    IssuedTokenAuthenticates(body, t0, nodeEnv, now);
  }

  /**
   * As written, the cookie is still presented when its token has already
   * expired: at the very moment the token lapses the browser sends it on.
   */
  lemma CookieAliveAfterExpiry(body: Option<Json>, t0: int, nodeEnv: Option<string>)
    requires Post(body, t0, nodeEnv).cookie.Some?
    ensures var c := Post(body, t0, nodeEnv).cookie.value;
      CookieAlive(c, t0, t0 + ValidityMs) && Classify(Some(c.value), t0 + ValidityMs) == Expired
  {
    IssuedTokenAuthenticates(body, t0, nodeEnv, t0 + ValidityMs);
  }

  /**
   * With `Max-Age` in seconds, the cookie is presented exactly while the
   * token in it authenticates: it lives and dies with the session.
   */
  lemma IntendedCookieMatchesToken(body: Option<Json>, t0: int, nodeEnv: Option<string>, now: int)
    requires PostIntended(body, t0, nodeEnv).cookie.Some? && t0 <= now
    ensures var c := PostIntended(body, t0, nodeEnv).cookie.value;
      CookieAlive(c, t0, now) <==> Classify(Some(c.value), now).Authenticated?
  {
    IssuedTokenAuthenticates(body, t0, nodeEnv, now);
  }
}

=== FILE: login.dfy ===
/** `POST /api/login-session` (src/routes/api/login-session/+server.ts). */
module LoginSession {
  import opened Maybe
  import opened Json
  import opened Js
  import opened Http
  import opened SessionToken

  /** The options object passed to `cookies.set`. */
  datatype CookieOptions = CookieOptions(maxAge: int, httpOnly: bool, secure: bool, path: string)

  /** The instruction `cookies.set(name, value, options)`. */
  datatype SetCookie = SetCookie(name: string, value: string, options: CookieOptions)

  datatype LoginResult = LoginResult(reply: Reply, cookie: Option<SetCookie>)

  const Success: Json := Object1("status", JString("success"))
  const NoUserId: Json := Object1("error", JString("No userId provided"))

  /**
   * The cookie as the handler writes it. `maxAge` receives `expiresIn`, a
   * number of milliseconds, while the `Max-Age` attribute counts seconds.
   */
  function SessionCookie(token: string, nodeEnv: Option<string>): (c: SetCookie)
    ensures c.name == "session" && c.value == token
    ensures c.options == CookieOptions(432_000_000, true, nodeEnv == Some("production"), "/")
  {
    SetCookie("session", token, CookieOptions(ValidityMs, true, nodeEnv == Some("production"), "/"))
  }

  /**
   * The handler. `body` is the parsed request body (`None` when
   * `request.json()` throws), `now` is `Date.now()` and `nodeEnv` is
   * `process.env.NODE_ENV`. Nothing inside the handler's `try` can throw for
   * a value that came out of `JSON.parse`, so its 500 branch is never taken.
   */
  function Post(body: Option<Json>, now: int, nodeEnv: Option<string>): (r: LoginResult)
    ensures r.cookie.Some? <==> r.reply == Respond(200, Success)
    ensures body.None? ==> r.reply == Throws(SyntaxError)
    ensures body == Some(JNull) ==> r.reply == Throws(TypeError)
    ensures body.Some? && Get(body.value, "userId").Read? ==>
      var userId := Get(body.value, "userId").value;
      if Truthy(userId) then
        r.cookie.Some? &&
        r.cookie.value.name == "session" &&
        r.cookie.value.options == CookieOptions(432_000_000, true, nodeEnv == Some("production"), "/") &&
        Decode(r.cookie.value.value) == Some(ToJson(Session(userId.json, now + 432_000_000)))
      else
        r == LoginResult(Respond(400, NoUserId), None)
  {
    match body
    case None => LoginResult(Throws(SyntaxError), None)
    case Some(b) =>
      match Get(b, "userId")
      case ReadOfNull => LoginResult(Throws(TypeError), None)
      case Read(userId) =>
        if !Truthy(userId) then LoginResult(Respond(400, NoUserId), None)
        else
          var session := Session(userId.json, now + ValidityMs);
          DecodeEncode(session);
          LoginResult(Respond(200, Success), Some(SessionCookie(Encode(session), nodeEnv)))
  }

  /** How long a browser keeps a cookie, in milliseconds: `Max-Age` is in seconds (section 5.2.2 of RFC 6265). */
  function CookieLifetimeMs(c: SetCookie): int
  {
    c.options.maxAge * 1000
  }

  /**
   * As written, the browser keeps the session cookie a thousand times longer
   * than the token inside it stays valid: 5000 days instead of 5.
   */
  lemma CookieOutlivesToken(body: Option<Json>, now: int, nodeEnv: Option<string>)
    requires Post(body, now, nodeEnv).cookie.Some?
    ensures var c := Post(body, now, nodeEnv).cookie.value;
      Decode(c.value).Some? &&
      Get(Decode(c.value).value, "expiresAt") == Read(Defined(JNumber(now + ValidityMs))) &&
      CookieLifetimeMs(c) == 1000 * ValidityMs
  {
  }

  /** The cookie with `Max-Age` in seconds, as the five-day window evidently intends. */
  function IntendedSessionCookie(token: string, nodeEnv: Option<string>): (c: SetCookie)
    ensures c.name == "session" && c.value == token
    ensures c.options.httpOnly && c.options.path == "/" && c.options.secure == (nodeEnv == Some("production"))
    ensures CookieLifetimeMs(c) == ValidityMs
  {
    SetCookie("session", token, CookieOptions(ValidityMs / 1000, true, nodeEnv == Some("production"), "/"))
  }

  /**
   * The handler with the intended cookie: the same reply and the same token,
   * with a cookie that lives exactly as long as the token stays valid.
   */
  function PostIntended(body: Option<Json>, now: int, nodeEnv: Option<string>): (r: LoginResult)
    ensures r.reply == Post(body, now, nodeEnv).reply
    ensures r.cookie.Some? <==> Post(body, now, nodeEnv).cookie.Some?
    ensures r.cookie.Some? ==>
      r.cookie.value.value == Post(body, now, nodeEnv).cookie.value.value && CookieLifetimeMs(r.cookie.value) == ValidityMs
  {
    var written := Post(body, now, nodeEnv);
    match written.cookie
    case None => written
    case Some(c) => LoginResult(written.reply, Some(IntendedSessionCookie(c.value, nodeEnv)))
  }
}

=== FILE: maybe.dfy ===
/** Optional values, used for every partial decoder in the model. */
module Maybe {

  datatype Option<+T> = None | Some(value: T)
}

/** Octets, as produced by Node's `Buffer`. */
module Bytes {

  type byte = b: int | 0 <= b < 256
}

=== FILE: notifications.dfy ===
/**
 * `POST /api/send-notifications` (src/routes/api/send-notifications/+server.ts):
 * picks a subject, a body and a recipient for one of three notification
 * types and hands one mail to the transport.
 */
module Notifications {
  import opened Maybe
  import opened Json
  import opened Js
  import opened Http

  /** The three notification types the handler recognises. */
  datatype Kind = Submission | Confirmation | NotAvailable

  /** `type === '…'`: strict equality, so only these three exact strings are recognised. */
  function KindOf(t: JsValue): (k: Option<Kind>)
    ensures k == Some(Submission) <==> t == Defined(JString("submission"))
    ensures k == Some(Confirmation) <==> t == Defined(JString("confirmation"))
    ensures k == Some(NotAvailable) <==> t == Defined(JString("not-available"))
  {
    if t == Defined(JString("submission")) then Some(Submission)
    else if t == Defined(JString("confirmation")) then Some(Confirmation)
    else if t == Defined(JString("not-available")) then Some(NotAvailable)
    else None
  }

  /** The fields read from the request body besides `type`. */
  datatype Request = Request(category: JsValue, subcategory: JsValue, amount: JsValue, quantity: JsValue, userEmail: JsValue)

  /** The options object passed to `transporter.sendMail`. */
  datatype MailOptions = MailOptions(from: string, to: JsValue, subject: string, text: string)

  function Subject(k: Kind): string
  {
    match k
    case Submission => "New Gift Card Request Submitted"
    case Confirmation => "Gift Card Request Confirmed"
    case NotAvailable => "Gift Card Request Not Available"
  }

  /** A line break followed by the six spaces of indentation the templates carry. */
  const Break: string := "\n      "

  /**
   * Every field the type's template interpolates converts to text: the
   * four details, and for a submission the requester's address too.
   */
  predicate Printable(k: Kind, q: Request)
  {
    ToText(q.category).Some? && ToText(q.subcategory).Some? && ToText(q.amount).Some? && ToText(q.quantity).Some? &&
    (k == Submission ==> ToText(q.userEmail).Some?)
  }

  /** The four detail lines every template shares; `None` when a field's conversion throws. */
  function Details(q: Request): Option<string>
  {
    match (ToText(q.category), ToText(q.subcategory), ToText(q.amount), ToText(q.quantity))
    case (Some(c), Some(s), Some(a), Some(n)) =>
      Some("Category: " + c + Break + "Subcategory: " + s + Break + "Amount: " + a + Break + "Quantity: " + n)
    case _ => None
  }

  function EmailLine(email: string): string
  {
    "User Email: " + email
  }

  /**
   * The template literal for each type, character for character, around
   * the converted details and (for a submission only) the converted address.
   */
  function Template(k: Kind, details: string, email: string): string
  {
    match k
    case Submission =>
      "A new gift card request has been submitted:" + Break + Break +
      details + Break + EmailLine(email) + Break + Break +
      "Please review this request at your earliest convenience."
    case Confirmation =>
      "Your gift card request has been confirmed:" + Break + Break +
      details + Break + Break +
      "Go to your dashboard and click on the payment button to make payment" + Break +
      "The gift card(s) will be processed and sent to you shortly."
    case NotAvailable =>
      "We regret to inform you that your gift card request is not available:" + Break + Break +
      details + Break + Break +
      "Please contact support for further assistance."
  }

  /** The mail's text; evaluating the template throws when an interpolated field cannot be converted. */
  function Text(k: Kind, q: Request): (r: Option<string>)
    ensures r.Some? <==> Printable(k, q)
  {
    match Details(q)
    case None => None
    case Some(details) =>
      if k != Submission then Some(Template(k, details, ""))
      else
        match ToText(q.userEmail)
        case None => None
        case Some(email) => Some(Template(k, details, email))
  }

  /** Submissions go to the operator's own mailbox; the other two go to the requester. */
  function Recipient(k: Kind, q: Request, operator: string): JsValue
  {
    if k == Submission then Defined(JString(operator)) else q.userEmail
  }

  /** The options object, or `None` when building its text throws. */
  function Mail(k: Kind, q: Request, operator: string): Option<MailOptions>
  {
    match Text(k, q)
    case None => None
    case Some(text) => Some(MailOptions(operator, Recipient(k, q, operator), Subject(k), text))
  }

  function Outcome(success: bool, message: string): Json
  {
    JObject([Member("success", JBool(success)), Member("message", JString(message))])
  }

  const Sent: Json := Outcome(true, "Notification email sent successfully")
  const Invalid: Json := Outcome(false, "Invalid notification type")
  const Failed: Json := Outcome(false, "Failed to send notification email")

  /** The reply, and the mail handed to `sendMail` (`None`: the transport was never called). */
  datatype Dispatch = Dispatch(reply: Reply, mail: Option<MailOptions>)

  /** The fields of a parsed body, or `None` where destructuring `null` throws. */
  function ReadRequest(body: Json): Option<(JsValue, Request)>
  {
    match (Get(body, "type"), Get(body, "category"), Get(body, "subcategory"), Get(body, "amount"),
           Get(body, "quantity"), Get(body, "userEmail"))
    case (Read(t), Read(c), Read(s), Read(a), Read(n), Read(e)) => Some((t, Request(c, s, a, n, e)))
    case _ => None
  }

  /**
   * The handler. `body` is the parsed request body (`None` when
   * `request.json()` throws), `operator` the configured sender address, and
   * `delivered` whether `sendMail` resolved. Everything runs inside one
   * `try`, so the handler never throws.
   */
  function Post(body: Option<Json>, operator: string, delivered: bool): (r: Dispatch)
    ensures r.reply.Respond?
    ensures r.mail.Some? ==> r.mail.value.from == operator
    ensures r.mail.Some? ==> body.Some? && ReadRequest(body.value).Some? && KindOf(ReadRequest(body.value).value.0).Some?
    ensures body.Some? && ReadRequest(body.value).Some? && KindOf(ReadRequest(body.value).value.0).Some? ==>
      r.mail == Mail(KindOf(ReadRequest(body.value).value.0).value, ReadRequest(body.value).value.1, operator)
    ensures r.reply.status == 400 <==> body.Some? && ReadRequest(body.value).Some? && KindOf(ReadRequest(body.value).value.0).None?
    ensures r.reply.status == 400 ==> r.reply.body == Invalid
    ensures r.reply.status == 200 <==> r.mail.Some? && delivered
    ensures r.reply.status == 200 ==> r.reply.body == Sent
    ensures r.reply.status !in {200, 400} ==> r.reply == Respond(500, Failed)
  {
    match body
    case None => Dispatch(Respond(500, Failed), None)
    case Some(b) =>
      match ReadRequest(b)
      case None => Dispatch(Respond(500, Failed), None)
      case Some((t, q)) =>
        match KindOf(t)
        case None => Dispatch(Respond(400, Invalid), None)
        case Some(k) =>
          match Mail(k, q, operator)
          case None => Dispatch(Respond(500, Failed), None)
          case Some(mail) =>
            if delivered then Dispatch(Respond(200, Sent), Some(mail)) else Dispatch(Respond(500, Failed), Some(mail))
  }

  // ------------------------------------------------------------------ lemmas

  predicate StartsWith(s: string, t: string)
  {
    |t| <= |s| && s[..|t|] == t
  }

  /** `t` occurs somewhere inside `s`. */
  predicate Contains(s: string, t: string)
  {
    exists i :: 0 <= i <= |s| && StartsWith(s[i..], t)
  }

  lemma ContainsMiddle(a: string, b: string, c: string)
    ensures Contains(a + b + c, b)
  {
    var s := a + b + c;
    assert s[|a|..][..|b|] == b;
    assert StartsWith(s[|a|..], b);
  }

  lemma Regroup3(x: string, a: string, b: string, c: string)
    ensures x + a + b + c == x + (a + b + c)
  {
  }

  /**
   * The mail each recognised type produces, when its fields convert: its
   * subject, its recipient, the operator as sender; only a submission
   * carries the requester's address.
   */
  lemma DispatchTable(k: Kind, q: Request, operator: string)
    ensures Mail(k, q, operator).Some? <==> Printable(k, q)
    ensures Mail(k, q, operator).Some? ==> Mail(k, q, operator).value.from == operator
    ensures k == Submission && Mail(k, q, operator).Some? ==>
      Mail(k, q, operator).value.subject == "New Gift Card Request Submitted" &&
      Mail(k, q, operator).value.to == Defined(JString(operator)) &&
      Contains(Mail(k, q, operator).value.text, EmailLine(ToText(q.userEmail).value))
    ensures k == Confirmation && Mail(k, q, operator).Some? ==>
      Mail(k, q, operator).value.subject == "Gift Card Request Confirmed" && Mail(k, q, operator).value.to == q.userEmail
    ensures k == NotAvailable && Mail(k, q, operator).Some? ==>
      Mail(k, q, operator).value.subject == "Gift Card Request Not Available" && Mail(k, q, operator).value.to == q.userEmail
  {
    MailFields(k, q, operator);
    SubjectAndRecipient(k, q, operator);
    if k == Submission {
      SubmissionCarriesEmail(q);
    }
  }

  lemma MailFields(k: Kind, q: Request, operator: string)
    ensures Mail(k, q, operator).Some? <==> Text(k, q).Some?
    ensures Mail(k, q, operator).Some? ==>
      Mail(k, q, operator).value == MailOptions(operator, Recipient(k, q, operator), Subject(k), Text(k, q).value)
  {
  }

  /** Subject and recipient for each type, without the body text. */
  lemma SubjectAndRecipient(k: Kind, q: Request, operator: string)
    ensures k == Submission ==>
      Subject(k) == "New Gift Card Request Submitted" && Recipient(k, q, operator) == Defined(JString(operator))
    ensures k == Confirmation ==>
      Subject(k) == "Gift Card Request Confirmed" && Recipient(k, q, operator) == q.userEmail
    ensures k == NotAvailable ==>
      Subject(k) == "Gift Card Request Not Available" && Recipient(k, q, operator) == q.userEmail
  {
  }

  lemma SubmissionCarriesEmail(q: Request)
    ensures Text(Submission, q).Some? ==> Contains(Text(Submission, q).value, EmailLine(ToText(q.userEmail).value))
  {
    if Text(Submission, q).Some? {
      var details, email := Details(q).value, ToText(q.userEmail).value;
      var head := "A new gift card request has been submitted:" + Break + Break + details + Break;
      var closing := "Please review this request at your earliest convenience.";
      assert Text(Submission, q).value == Template(Submission, details, email);
      assert Template(Submission, details, email) == head + EmailLine(email) + Break + Break + closing;
      Regroup3(head + EmailLine(email), Break, Break, closing);
      ContainsMiddle(head, EmailLine(email), Break + Break + closing);
    }
  }

  /** Only a submission's text depends on the requester's address; the other two ignore it. */
  lemma OnlySubmissionMentionsEmail(k: Kind, q: Request, email: JsValue)
    requires k != Submission
    ensures Text(k, q) == Text(k, q.(userEmail := email))
  {
    assert Details(q) == Details(q.(userEmail := email));
  }

  /** The subject alone tells which type was sent. */
  lemma SubjectIdentifiesKind(k1: Kind, k2: Kind)
    ensures Subject(k1) == Subject(k2) <==> k1 == k2
  {
    if k1 != k2 {
      assert Subject(k1)[0] != Subject(k2)[0] || |Subject(k1)| != |Subject(k2)|;
    }
  }

  /**
   * A recognised type whose template meets a field that cannot be converted
   * (an object with its own `toString`) throws while building the text; the
   * `catch` answers 500 and the transport is never called.
   */
  lemma UnprintableSendsNothing(body: Json, operator: string, delivered: bool)
    requires ReadRequest(body).Some? && KindOf(ReadRequest(body).value.0).Some?
    requires !Printable(KindOf(ReadRequest(body).value.0).value, ReadRequest(body).value.1)
    ensures Post(Some(body), operator, delivered) == Dispatch(Respond(500, Failed), None)
  {
  }

  /** An unrecognised type is refused with 400 before the transport is touched, whatever the transport would do. */
  lemma UnknownTypeSendsNothing(body: Json, operator: string, delivered: bool)
    requires ReadRequest(body).Some? && KindOf(ReadRequest(body).value.0).None?
    ensures Post(Some(body), operator, delivered) == Dispatch(Respond(400, Invalid), None)
  {
  }
}

=== FILE: session_token.dfy ===
/**
 * The session token: the session object as JSON text, as UTF-8 octets, in
 * base64. The same codec is written once at issue time
 * (src/routes/api/login-session/+server.ts) and read back on every request
 * (src/hooks.server.ts).
 */
module SessionToken {
  import opened Maybe
  import opened Json
  import Utf8
  import Base64
  import JsonRoundTrip

  /** Five days in milliseconds: `60 * 60 * 24 * 5 * 1000`. */
  const ValidityMs: int := 60 * 60 * 24 * 5 * 1000

  /** What the login handler signs a user in with: no signature, just an id and a deadline. */
  datatype Session = Session(userId: Json, expiresAt: int)

  /** `{ userId, expiresAt }`, members in that order. */
  function ToJson(s: Session): Json
  {
    JObject([Member("userId", s.userId), Member("expiresAt", JNumber(s.expiresAt))])
  }

  /** `Buffer.from(JSON.stringify(payload)).toString('base64')`. */
  function EncodePayload(payload: Json): string
  {
    Base64.Encode(Utf8.Encode(Stringify(payload)))
  }

  function Encode(s: Session): string
  {
    EncodePayload(ToJson(s))
  }

  /**
   * `JSON.parse(Buffer.from(cookie, 'base64').toString())`: `None` where the
   * JavaScript throws. Whatever JSON the text holds comes back, session-shaped or not.
   */
  function Decode(cookie: string): Option<Json>
  {
    match Base64.Decode(cookie)
    case None => None
    case Some(octets) =>
      match Utf8.Decode(octets)
      case None => None
      case Some(text) => Parse(text)
  }

  /** Decoding a token gives back exactly the JSON value that was encoded, and the token is never empty. */
  lemma DecodeEncodePayload(payload: Json)
    ensures Decode(EncodePayload(payload)) == Some(payload)
    ensures |EncodePayload(payload)| > 0
  {
    var text := Stringify(payload);
    JsonRoundTrip.ParseStringify(payload);
    JsonRoundTrip.StringifyStart(payload);
    Utf8.DecodeEncode(text);
    Base64.DecodeEncode(Utf8.Encode(text));
    assert |Utf8.Encode(text)| > 0 by {
      assert Utf8.Encode(text) == Utf8.EncodeChar(text[0]) + Utf8.Encode(text[1..]);
    }
  }

  /** The codec round trip for sessions: the decoded object is the session's own `{ userId, expiresAt }`. */
  lemma DecodeEncode(s: Session)
    ensures Decode(Encode(s)) == Some(ToJson(s))
    ensures |Encode(s)| > 0
  {
    DecodeEncodePayload(ToJson(s));
  }
}

=== FILE: utf8.dfy ===
/**
 * UTF-8 (RFC 3629) as `Buffer.from(text)` uses it to turn the session's JSON
 * text into octets, and `buffer.toString()` to turn octets back into text.
 * Characters are Unicode scalar values, so every string here is encodable.
 */
module Utf8 {
  import opened Maybe
  import opened Bytes

  predicate IsContinuation(b: byte) { 0x80 <= b < 0xC0 }

  /** The one to four octets of a single scalar value. */
  function EncodeChar(c: char): (bs: seq<byte>)
    ensures 1 <= |bs| <= 4
    ensures |bs| == 1 <==> (c as int) < 0x80
    ensures forall i :: 1 <= i < |bs| ==> IsContinuation(bs[i])
  {
    var n := c as int;
    if n < 0x80 then [n]
    else if n < 0x800 then [0xC0 + n / 64, 0x80 + n % 64]
    else if n < 0x10000 then [0xE0 + n / 64 / 64, 0x80 + n / 64 % 64, 0x80 + n % 64]
    else [0xF0 + n / 64 / 64 / 64, 0x80 + n / 64 / 64 % 64, 0x80 + n / 64 % 64, 0x80 + n % 64]
  }

  function Encode(s: string): seq<byte>
  {
    if |s| == 0 then [] else EncodeChar(s[0]) + Encode(s[1..])
  }

  predicate IsScalar(n: int) { 0 <= n < 0xD800 || 0xE000 <= n < 0x11_0000 }

  /**
   * Decodes the scalar value at the front of `bs` and says how many octets it
   * took; overlong forms, surrogates and values past U+10FFFF are rejected.
   */
  function DecodeFirst(bs: seq<byte>): (r: Option<(char, nat)>)
    ensures r.Some? ==> 1 <= r.value.1 <= |bs| && r.value.1 <= 4
  {
    if |bs| == 0 then None
    else if bs[0] < 0x80 then Some((bs[0] as char, 1))
    else if 0xC2 <= bs[0] < 0xE0 then
      if |bs| < 2 || !IsContinuation(bs[1]) then None
      else Some((((bs[0] as int - 0xC0) * 64 + (bs[1] as int - 0x80)) as char, 2))
    else if 0xE0 <= bs[0] < 0xF0 then
      if |bs| < 3 || !IsContinuation(bs[1]) || !IsContinuation(bs[2]) then None
      else
        var n := (bs[0] as int - 0xE0) * 4096 + (bs[1] as int - 0x80) * 64 + (bs[2] as int - 0x80);
        if n < 0x800 || !IsScalar(n) then None else Some((n as char, 3))
    else if 0xF0 <= bs[0] < 0xF5 then
      if |bs| < 4 || !IsContinuation(bs[1]) || !IsContinuation(bs[2]) || !IsContinuation(bs[3]) then None
      else
        var n := (bs[0] as int - 0xF0) * 262144 + (bs[1] as int - 0x80) * 4096 + (bs[2] as int - 0x80) * 64 + (bs[3] as int - 0x80);
        if n < 0x1_0000 || !IsScalar(n) then None else Some((n as char, 4))
    else None
  }

  /** Strict decoding: `None` on any octet sequence that is not well-formed UTF-8. */
  function Decode(bs: seq<byte>): Option<string>
    decreases |bs|
  {
    if |bs| == 0 then Some("")
    else match DecodeFirst(bs)
      case None => None
      case Some((c, k)) =>
        match Decode(bs[k..])
        case None => None
        case Some(rest) => Some([c] + rest)
  }

  /** The first scalar value of an encoding decodes back, whatever follows it. */
  lemma DecodeFirstEncodeChar(c: char, rest: seq<byte>)
    ensures DecodeFirst(EncodeChar(c) + rest) == Some((c, |EncodeChar(c)|))
  {
    var n := c as int;
    if n < 0x80 {
    } else if n < 0x800 {
      DecodeTwo(c, rest);
    } else if n < 0x10000 {
      DecodeThree(c, rest);
    } else {
      DecodeFour(c, rest);
    }
  }

  lemma DecodeTwo(c: char, rest: seq<byte>)
    requires 0x80 <= c as int < 0x800
    ensures DecodeFirst(EncodeChar(c) + rest) == Some((c, 2))
  {
    var n := c as int;
    var q, r := n / 64, n % 64;
    assert n == q * 64 + r && 2 <= q < 32;
    var bs := EncodeChar(c) + rest;
    assert bs[0] == 0xC0 + q && bs[1] == 0x80 + r;
  }

  lemma DecodeThree(c: char, rest: seq<byte>)
    requires 0x800 <= c as int < 0x10000
    ensures DecodeFirst(EncodeChar(c) + rest) == Some((c, 3))
  {
    var n := c as int;
    var a, r := n / 64, n % 64;
    var q, m := a / 64, a % 64;
    assert n == a * 64 + r && a == q * 64 + m;
    var bs := EncodeChar(c) + rest;
    assert bs[0] == 0xE0 + q && bs[1] == 0x80 + m && bs[2] == 0x80 + r;
  }

  lemma DecodeFour(c: char, rest: seq<byte>)
    requires 0x10000 <= c as int
    ensures DecodeFirst(EncodeChar(c) + rest) == Some((c, 4))
  {
    var n := c as int;
    var a, r := n / 64, n % 64;
    var b, m2 := a / 64, a % 64;
    var q, m1 := b / 64, b % 64;
    assert n == a * 64 + r && a == b * 64 + m2 && b == q * 64 + m1;
    assert q < 5;
    var bs := EncodeChar(c) + rest;
    assert bs[0] == 0xF0 + q && bs[1] == 0x80 + m1 && bs[2] == 0x80 + m2 && bs[3] == 0x80 + r;
  }

  /** Decoding inverts encoding: the text that went into `Buffer.from` comes back out of `toString`. */
  lemma {:induction false} DecodeEncode(s: string)
    ensures Decode(Encode(s)) == Some(s)
  {
    if |s| > 0 {
      var e := EncodeChar(s[0]);
      DecodeFirstEncodeChar(s[0], Encode(s[1..]));
      assert (e + Encode(s[1..]))[|e|..] == Encode(s[1..]);
      DecodeEncode(s[1..]);
      assert [s[0]] + s[1..] == s;
    }
  }
}
